=== FILE: README.md ===
# Room hub of AmongUs-WS-Golang, modelled in Dafny

The server lets browsers join named game rooms over WebSockets. A
registry (`Manager`) maps normalised room codes to rooms and creates a
room the first time its code is used. Each room runs a hub loop that
serves three kinds of request, one at a time:

- register a client;
- unregister a client;
- broadcast a message to every member, best effort: a member whose
  256-slot send queue is full simply misses it.

Each client runs two loops:

- a read pump: it stores every frame in a 50-entry history list; once
  the room's gate is open it turns a client's first `agree` frame into a
  readiness mark and drops malformed frames; it forwards the rest to the
  hub;
- a write pump: it drains the send queue to the socket and sends a ping
  every 54 seconds.

A room also bridges to a shared publish/subscribe channel:

- the room's state snapshot is published there;
- a relay task re-injects what it receives into the local broadcast;
- a `subActive` flag is meant to say whether a relay is running.

The model tracks each relay task by name, separately from the flag. A
relay is told to stop when its room empties. It clears the flag when it
ends, and it may also end on its own.

The repository holds two variants of the hub:

- `rooms.go`, with the readiness counter and the relay;
- `room.go`, a plainer one without either.

Both declare the same package-level names, so they cannot be built
together. Both are modelled, as `Hub` and `PlainHub`.

The model is a sequential transition system over immutable values:

- Go pointers to clients become `ClientId` keys into a per-room
  `sessions` map. `members` is the room's `Clients` set.
- A send channel is a value: buffered payloads, capacity, closed flag.
  Sending on or closing a closed channel panics in Go, so those
  operations require an open queue. The hub invariant `Hub.Sound` keeps
  every member's queue open.
- Go's unspecified map-iteration order is an explicit `order` argument
  that must list the keys exactly once. Lemmas show that the result does
  not depend on it beyond permutation.
- These are inputs to the model:
  - the socket reads;
  - the replies of the history store (Redis);
  - the upgrade handshake;
  - generated ids;
  - the room's gate value;
  - when a relay forwards a payload or ends, and when a write pump takes
    the oldest payload out of a queue (`Hub.Drained`).
- JSON is abstract. A payload is opaque text or an envelope value, and
  the outcome of decoding a frame is an input.

Modules, one per source concern:

- `GoStrings`: `strings.TrimSpace`, ASCII `strings.ToUpper`.
- `Wire`: snapshots, envelopes, payloads.
- `Enumeration`: map walks and permutations.
- `Channels`: buffered channels.
- `Session`: `Client`, `NewClient`, fan-out and roster.
- `Hub`: `rooms.go`.
- `PlainHub`: `room.go`.
- `Pumps`: the read and write pumps of `client.go`.
- `Registry`: `manager.go`.

## Model

| member | source | states |
|---|---|---|
| GoStrings.TrimSpace | manager.go:97 | the result is the slice of the input between its leading and trailing white space; it neither starts nor ends with white space; everything cut off is white space; it is empty exactly when the input is all white space |
| GoStrings.TrimSpaceIdempotent | client.go:38 | trimming a name that `ServeWS` already trimmed changes nothing |
| GoStrings.TrimSpacePadded | manager.go:97 | a trimmed, non-empty string with one blank added on each side trims back to itself |
| GoStrings.ToUpper | manager.go:68 | the result has the input's length and upper-cases each character independently (ASCII letters) |
| GoStrings.ToUpperKeepsTrimmed | manager.go:68 | upper-casing a trimmed string leaves it trimmed, since no letter becomes white space |
| Channels.MakeChan | client.go:47 | a fresh queue is empty, open, within capacity |
| Channels.TrySend | rooms.go:173-176 | a non-blocking send appends the payload when the queue has room and otherwise leaves the queue exactly as it was; capacity and the bound are kept |
| Channels.Close | rooms.go:160 | closing keeps the buffered payloads readable and marks the queue closed |
| Channels.Receive | client.go:127 | a receive takes the oldest payload; the rest stay in order, with the same capacity and closed flag |
| Channels.SendAll | manager.go:115-117 | blocking sends with no reader succeed exactly when everything fits, and then append the payloads in order |
| Enumeration.EnumerationSize | rooms.go:51 | a walk of a map visits as many entries as the map has keys |
| Enumeration.EnumerationsPermute | rooms.go:51 | any two walks of the same key set are permutations of each other |
| Enumeration.MapPermute | rooms.go:51-58 | mapping two permuted walks gives permuted results |
| Session.DisplayName | client.go:38-41 | the kept name is the trimmed name, or "Player" when nothing is left; either way it is non-empty and already trimmed |
| Session.NewClient | client.go:37-52 | a new client is alive, not ready, crew, and has an empty open queue of capacity 256 |
| Session.Deliver | rooms.go:144-149 | every target with room gets exactly its message appended; full targets and non-targets are untouched; no other field of any session changes |
| Session.PlayersPerMember | rooms.go:51-58 | the roster has one entry per member, each copying that member's id, name, liveness and readiness |
| Session.Snapshot | rooms.go:46-60 | the state carries the room code and exactly one entry per member, in walk order, copying that member's id, name, liveness and readiness |
| Session.SnapshotListsMember | rooms.go:51-58 | every member appears in the snapshot with its own name, liveness and readiness |
| Session.SnapshotOrderIrrelevant | rooms.go:51-58 | whatever order the map walk takes, the snapshot has the same room and the same entries |
| Hub.NewRoom | rooms.go:34-44 | a new room is empty, has no ready members and no relay, and satisfies the invariant |
| Hub.ReadyBounds | rooms.go:157-158 | in every sound room (so under rooms.go as written too) the readiness counter lies between zero and the member count |
| Hub.AtMostOneRelay | rooms.go:81-127 | in a reachable room, with the corrected reset, at most one relay forwards, and none once the room is empty |
| Hub.EnsureSubscriber | rooms.go:81-90 | afterwards the flag is set; a new `stop` channel is made and one new relay started exactly when the flag was clear, whatever relays were still running; otherwise nothing changes |
| Hub.StopSubscriber | rooms.go:115-127 | afterwards the flag is clear; when it was set, the current `stop` channel is closed and every forwarding relay is taken out of forwarding (exact for the relay of that channel; see Left out for older ones); when it was clear, nothing happens, even if relays still forward |
| Hub.SubscriberIdempotent | rooms.go:84-86 | a second start in a row starts no relay; a second stop in a row closes no channel |
| Hub.RelayEndsAsWritten | rooms.go:92-96 | as written, a relay's deferred reset removes that relay and clears the flag, whichever relay the flag stands for |
| Hub.RelayEnds | rooms.go:92-96 | corrected: the reset removes that relay and clears the flag only when that relay is the one the flag stands for |
| Hub.BridgeStepsTrackRelays | rooms.go:81-127 | starting, stopping and the corrected reset keep the flag truthful: it is set exactly when the relay of the current `stop` channel forwards, and then that relay is the only one |
| Hub.JoinLeaveJoin | rooms.go:132-167 | in an empty room, "a" joins and leaves and "b" joins: relay 1 has been told to stop, relay 2 forwards, and the flag is set |
| Hub.StaleResetLeavesRelayBehind | rooms.go:92-96 | as written, relay 1's late reset clears the flag under relay 2: when "c" joins, relays 2 and 3 both forward; when "b" leaves instead, the room is empty and relay 2 keeps forwarding |
| Hub.StaleResetHarmlessWhenCorrected | rooms.go:92-96 | corrected, the same late reset keeps the flag: when "c" joins, only relay 2 forwards; when "b" leaves, no relay forwards |
| Hub.Register | rooms.go:132-150 | the client becomes a member; the relay is active; every member with room, the newcomer included, receives "joined: " plus the newcomer's name; no queue is opened, closed or resized; the counter and everything else stay |
| Hub.RegisterExtendsQueues | rooms.go:143-149 | registering never removes a queued message or renames a client: every queue only grows at its end |
| Hub.JoinPublishesNewcomer | rooms.go:143-151 | in every sound room, the snapshot published after a join lists the newcomer once, with its own name, liveness and readiness; the room stays sound, and valid when it was |
| Hub.Unregister | rooms.go:153-167 | a member is removed and its queue closed, and the counter drops by one if it was ready (never below zero); a non-member changes nothing; a room left empty stops its relay |
| Hub.UnregisterNonMemberNoop | rooms.go:155 | in every sound room, unregistering a non-member leaves the room identical |
| Hub.UnregisterMemberCount | rooms.go:155-161 | in every sound room a leaving member lowers the counter by exactly its own readiness and the member count by one; its queue ends closed |
| Hub.Broadcast | rooms.go:169-179 | every member with room receives the payload; membership, the counter and the relay flag are unchanged |
| Hub.Relay | rooms.go:103-111 | a payload received by any forwarding relay, whatever the flag says, reaches every member whose queue has room, appended at the end; full queues and non-members are untouched; members, counter and bridge stay |
| Hub.TwoRelaysDeliverTwice | rooms.go:103-111 | with two relays forwarding, a member with room for both receives each published payload twice |
| Hub.Drain | client.go:127-136 | the write pump takes the oldest payload out of one queue; that queue keeps its capacity and its closed flag, and nothing else changes |
| Hub.DrainKeepsValid | client.go:127-136 | dequeuing keeps the room sound, and valid when it was |
| Hub.MarkReady | client.go:90-94 | marking a client ready sets its flag and raises the counter by one, changing nothing else |
| Hub.AllReady | rooms.go:67-71 | in every sound room the counter test holds exactly when the room is non-empty and every member is ready |
| Hub.CounterCountsReady | rooms.go:67-71 | in every sound room the counter equals the member count exactly when every member is ready |
| Hub.BroadcastState | rooms.go:46-65 | the published "state" envelope carries the room code and lists every member exactly once, with its own name, liveness and readiness, and nobody else |
| Hub.RegisterKeepsValid | rooms.go:132-150 | registering a fresh client keeps the room sound (open member queues, bounded queues, counter equal to the number of ready members, flag set only in a non-empty room), and keeps the flag truthful when it was |
| Hub.LeaveKeepsCounter | rooms.go:155-161 | after a member leaves, the remaining members still have open queues and the counter still equals the number of ready members |
| Hub.UnregisterKeepsValid | rooms.go:153-167 | unregistering keeps the room sound, and valid when it was |
| Hub.ReadyAfterLeave | rooms.go:153-161 | a leaving member removes its own ready flag, and only that one, from the set of ready members |
| Hub.BroadcastKeepsValid | rooms.go:169-178 | broadcasting keeps the room sound, and valid when it was |
| Hub.MarkReadyKeepsValid | client.go:90-94 | marking a not-yet-ready member keeps the counter equal to the number of ready members, so the room stays sound, and valid when it was |
| Hub.BridgeChangeKeepsSound | rooms.go:92-96 | changing only the bridge keeps a room sound whenever the new flag is set only in a non-empty room |
| Hub.Step | rooms.go:129-183 | with the corrected relay reset, every admissible request keeps the room sound, and valid when it was |
| Hub.StepAsWritten | rooms.go:92-96 | with the reset as written, every admissible request still keeps the room sound; it differs from the corrected step only when a relay ends, and then the flag is clear |
| Hub.RunAsWritten | rooms.go:129-183 | under rooms.go as written, after any admissible run of requests the room is sound, its counter lies within 0..members, and the flag is set only in a non-empty room |
| Hub.Run | rooms.go:129-183 | with the corrected reset, after any admissible run of requests the room is valid, its counter lies within 0..members, at most one relay forwards, and none does in an empty room |
| PlainHub.NewRoom | room.go:32-41 | a new room is empty and valid |
| PlainHub.RegisterAsWritten | room.go:48-61 | as written, each member with room receives "joined: " plus its own name; no queue is opened, closed or resized, and nothing else changes |
| PlainHub.JoinedNoticeNamesRecipient | room.go:55-60 | as written, a member whose name differs from the newcomer's never receives a notice naming the newcomer |
| PlainHub.AnnSeesOwnName | room.go:57 | Ann in the room, Bob joins: as written Ann's queue holds "joined: Ann" |
| PlainHub.Register | room.go:48-61 | corrected: every member with room receives "joined: " plus the newcomer's name; no queue is opened, closed or resized, and nothing else changes |
| PlainHub.AnnSeesNewcomer | room.go:57 | corrected, Ann's queue holds "joined: Bob" |
| PlainHub.Unregister | room.go:66-72 | a member is removed and its queue closed; a non-member changes nothing |
| PlainHub.Broadcast | room.go:75-83 | every member with room receives the payload; no queue is opened, closed or resized, and nothing else changes |
| PlainHub.BroadcastState | room.go:89-108 | the "state" envelope carries the room code and lists every member exactly once, with its own name, liveness and readiness, and nobody else |
| PlainHub.RegisterKeepsValid | room.go:48-61 | the corrected register case keeps members known and open and queues bounded |
| PlainHub.RegisterAsWrittenKeepsValid | room.go:48-61 | the register case as written keeps the invariant too |
| PlainHub.UnregisterKeepsValid | room.go:66-72 | unregistering keeps the invariant |
| PlainHub.BroadcastKeepsValid | room.go:75-83 | broadcasting keeps the invariant |
| PlainHub.HandleRegisterAsWritten | room.go:63 | as written, a completed register case would have added the client |
| PlainHub.RegisterAlwaysBlocks | room.go:106-110 | as written, `broadcastState` sends on the loop's own unbuffered channel, so every register case blocks forever |
| PlainHub.HandleRegister | room.go:48-63 | with only the blocking send corrected: the register case ends valid, and every member with two free slots receives the joined notice as written (its own name), then the snapshot that includes the newcomer |
| PlainHub.NoticeThenPayload | room.go:48-61 | a member with two free slots receives the joined notice as written followed by the broadcast payload, in that order |
| Pumps.Wrap64 | client.go:34 | 64-bit two's-complement wrap-around: the result is in range, congruent to the input, and equal to it when no overflow occurs |
| Pumps.PingPeriod | client.go:34 | for every positive 64-bit wait, overflow or not, the ping period is strictly shorter than the wait, so a probe is due before the read deadline |
| Pumps.TenthOfInt64 | client.go:34 | a truncated tenth of any 64-bit count is at most a tenth of the largest one, which bounds the period after wrap-around |
| Pumps.PingPeriodIsNineTenths | client.go:32-35 | when nine times the wait fits in 64 bits, the period is the floor of nine tenths of the wait and not negative |
| Pumps.OverflowedPeriodIsNegative | client.go:34 | the smallest wait whose ninefold product overflows gives a negative period |
| Pumps.ConfiguredPingPeriod | client.go:33-34 | with the 60 s wait the ping period is 54 s |
| Pumps.KeepLast | client.go:79 | trimming keeps the last n entries (all if fewer) |
| Pumps.RecordFrame | client.go:76-81 | push and trim can each fail on their own: both succeed, so the history is exactly the last 50 entries of the old list plus the frame; push only, so it is appended; trim only, so the old list is trimmed; neither, so the list is unchanged |
| Pumps.KeepLastAppend | client.go:76-81 | trimming before appending and trimming again equals appending then trimming |
| Pumps.HistoryIsWindow | client.go:76-81 | after any run of stored frames the history is the last 50 of everything received, never longer |
| Pumps.ReadStep | client.go:66-114 | a read error sends exactly one unregister and ends the pump; at the gate, a malformed frame is dropped; a client's first agree marks it ready and broadcasts an agree envelope with its name; everything else is forwarded verbatim; history follows `RecordFrame` |
| Pumps.ForwardingIgnoresStore | client.go:76-81 | history failures never change the room, the requests sent or whether the pump ends |
| Pumps.ReadStepKeepsValid | client.go:83-113 | in every sound room, a member's frame keeps the room sound (and valid when it was) and keeps membership, and every request it sends the hub is admissible |
| Pumps.AgreeTwiceCountsOnce | client.go:90-108 | two agree frames raise the counter by one: the first is intercepted, the second forwarded as text |
| Pumps.LastAgreeCompletesRoom | client.go:105-107 | in every sound room, after an intercepted agree, `allReady` holds exactly when every other member was already ready |
| Pumps.SawAgreeSnoc | client.go:90 | one more frame is an agree signal already seen exactly when it is one or an earlier frame was |
| Pumps.ClosedGateForwardsVerbatim | client.go:83-113 | while the room's gate is below 3, the requests for a run of frames are exactly one verbatim broadcast per frame, in order |
| Pumps.FirstAgreeAt | client.go:90-94 | frame k is intercepted as an agree exactly when it is the first agree signal among the first k+1 frames and the client was not ready before; the room then becomes the one k+1 frames leave behind |
| Pumps.FrameStep | client.go:66-114 | `ReadStep` on frame k, in the room the earlier frames left behind, leaves the room of `RoomAfterFrames` for k+1 frames and adds exactly `FrameOut` for frame k to the forwarded requests |
| Pumps.ReadOne | client.go:66-114 | with both history requests succeeding, one loop iteration carries the loop's account (room, history, requests so far) from k frames to k+1 |
| Pumps.ReadLoop | client.go:54-115 | the pump stops at the first read error and only then; the room is the one `RoomAfterFrames` gives, so it is either unchanged or the client is marked ready once; the requests sent are exactly `Forwarded` for the frames read (per frame: dropped if malformed behind the gate, the agree notice for the first agree, the verbatim text otherwise), in order, then one unregister if the pump failed; the history is the last 50 texts |
| Pumps.ReadFrames | client.go:66-114 | with every history request succeeding, the frame loop consumes frames up to the first failed read; the room and the requests sent are exactly `RoomAfterFrames` and `Forwarded` of the frames read; the history is the last 50 texts received |
| Pumps.WriteStep | client.go:125-143 | a tick writes a ping; a queued payload is written first-in first-out; a closed, drained queue writes a close frame and stops; a failed write stops |
| Pumps.DrainClosed | client.go:127-136 | on a closed queue the pump writes every buffered payload in order, then exactly one close frame |
| Registry.CheckOrigin | manager.go:25-33 | exactly the origin "http://localhost:3000" is accepted; a missing origin is refused |
| Registry.NormalizeCode | manager.go:68 | a normalised code has no white space at either end and no lower-case ASCII letter |
| Registry.NormalOfNormal | manager.go:68 | a code in that form normalises to itself |
| Registry.NormalizeIdempotent | manager.go:96 | normalising the code in `ServeWS` and again in `GetOrCreate` is the same as once |
| Registry.NormalizeExample | manager.go:68 | " ab " and "AB" name the same room "AB" |
| Registry.GetOrCreate | manager.go:67-86 | the key is the normalised code and is present afterwards; an existing room is returned with the registry unchanged; otherwise exactly one new empty room is added under that key and every other room is untouched |
| Registry.GetOrCreateKeepsValid | manager.go:82-83 | every room stays stored under its own normalised code and stays sound |
| Registry.GetOrCreateStable | manager.go:68-75 | codes equal after normalisation reach the same room, and a second lookup creates nothing |
| Registry.Admit | manager.go:114-118 | for any sound room: replaying the history succeeds exactly when it fits in 256 slots; then the client is a member, its queue starts with the history in order, and the room stays sound, and valid when it was |
| Registry.ServeWS | manager.go:95-122 | an empty code or name is a bad request; an unaccepted origin or failed handshake ends there; history longer than the queue blocks the handler after the room was created; otherwise the client joins the room under the normalised code with its trimmed name, its queue starts with the history, and every other room is untouched |
| Registry.ReplayFits | manager.go:115-117 | a request from the allowed origin whose room code and name are not all white space, and whose stored history respects the 50-entry limit, always joins |
| Registry.GetRooms | manager.go:41-65 | one item per registered room in walk order, with an id made of the code, a vertical bar and the code again, name and code equal to the room's code, and count equal to its member count |
| Registry.GetRoomsListsEachRoomOnce | manager.go:46-58 | the listing names every registered room exactly once and nothing else |

## Left out

- Concurrency is left out: goroutines, the locks, and the interleaving of the hub loop with the pumps and the relay. Each hub case is one atomic step, and each pump step hands the hub a list of requests.
- The Redis network is left out. Publishing, subscribing, and the history store's `RPush`, `LTrim` and `LRange` are replaced by their results, given as inputs.
- JSON encoding and decoding are left out: a payload is a value, and the decode outcome of a frame is an input.
- Timestamps and read/write deadlines, `SetReadLimit`, the pong handler, logging, UUID generation and the HTTP error responses are left out, since none of them changes the state being modelled.
- `startGameCountDown` is empty in rooms.go. The model only establishes when it would be started (`Pumps.LastAgreeCompletesRoom`).
- The game phase and the `ready` event name of event.go are left out. The code intercepts frames typed `agree`, and the model follows the code.
- `c.Room.active` is left out as a field: no `Room` type declares it, so its value is an input and the gate is `active >= 3`.
- Hub.Register: the state snapshot is published to the shared channel, not to local queues. Its content is stated separately by `Hub.JoinPublishesNewcomer`. Client frames are broadcast locally and never published; the code publishes snapshots only.
- Hub.Run: states "a set flag implies members present", not "if and only if". When a relay's subscription channel closes while members remain, rooms.go clears the flag and nothing restarts it until the next join.
- Hub.Run: is proved for the corrected reset (`Hub.RelayEnds`). The reset as written breaks the relay bound, as the Findings show.
- Hub.Step: applies the corrected reset when a relay ends, not the one rooms.go:92-96 performs. `Hub.StepAsWritten` and `Hub.RunAsWritten` apply the reset as written. There, the room stays sound, with the counter within bounds and the flag set only when members remain, but the flag no longer tracks the relays. The pumps and the registry require only `Hub.Sound`, which holds under either reset; each also keeps `Hub.Valid` when it held.
- Hub.Relay: the relay's blocking hand-off into the 128-slot broadcast channel is treated as immediately served.
- Hub.StopSubscriber: every forwarding relay is taken out of forwarding when the current `stop` channel closes. In Go that is only sure for a relay whose `select` is waiting on that channel, and even it may still pick a pending message first. A relay evaluates `r.stop` once per turn of its loop. So a relay still waiting on an older `stop` channel is not woken, and its subscription is not closed, because `r.pubsub` names a newer one. It forwards the next published payload, then reads the field again. If a later join has replaced the field with an open channel by then, it keeps running. A relay blocked in the hand-off is in the same position. In the model such a relay forwards nothing after the stop, and it stays listed until its `RelayEnded` event.
- Hub.Drain: the write pump's socket writes are `Pumps.WriteStep`. The hub model only removes the dequeued payload.
- GoStrings.ToUpper: upper-cases ASCII letters only. Go also maps non-ASCII letters, which room codes in practice do not contain.
- Pumps.ReadLoop: assumes every history request succeeds. The single step `Pumps.ReadStep` covers the failing replies, and `Pumps.ForwardingIgnoresStore` shows that they change neither the room nor the requests sent.
- Pumps.ReadFrames: assumes every history request succeeds, for the same reason. With a failed push, the history is not the last 50 texts received.
- Pumps.ReadOne: assumes both history requests of its frame succeed, as `Pumps.ReadFrames` does.
- Pumps.DrainClosed: assumes every write succeeds. `Pumps.WriteStep` covers failures.
- Registry.ReplayFits: assumes the stored history respects the 50-entry limit. That holds only as long as every `LTrim` has succeeded.
- Registry.ServeWS: the pump goroutines started at the end are the `Pumps` model. A stalled request's connection is left open in Go; the model only says that its room exists.

## Findings

| source | as written | input that shows it | evidently intended | confidence | as-written member | corrected member |
|---|---|---|---|---|---|---|
| room.go:57 | each member is sent "joined: " followed by its own name (`cl.name`) | Ann is in the room and Bob joins: Ann receives "joined: Ann" | every member is told the newcomer's name ("joined: Bob"), as rooms.go:146 does | high, not executed | PlainHub.AnnSeesOwnName | PlainHub.AnnSeesNewcomer |
| rooms.go:92-96 | a relay's deferred reset clears `subActive` unconditionally, even after a newer relay has started | in an empty room: "a" joins, "a" leaves, "b" joins, then relay 1 ends; when "c" joins, relays 2 and 3 both forward, so each payload arrives twice; when "b" leaves instead, relay 2 keeps running in the empty room | the reset clears the flag only while the room's `stop` channel is still the one its own relay started with | high, not executed | Hub.StaleResetLeavesRelayBehind | Hub.Run |
| room.go:109 | `broadcastState` sends on the room's unbuffered `broadcast` channel from inside the room loop, which is that channel's only reader | any registration in a room of room.go: the register case never finishes, and the room serves no later request | the snapshot is handed to the room's own broadcast case, which delivers it to every member | high, not executed | PlainHub.RegisterAlwaysBlocks | PlainHub.HandleRegister |

=== FILE: channels.dfy ===
/** A client's buffered send channel (`chan []byte` with a capacity),
    as a value: the buffered payloads, the capacity and whether it has
    been closed. */
module Channels {
  import opened Wire

  datatype Chan = Chan(items: seq<Payload>, capacity: nat, closed: bool) {
    predicate Full() {
      |items| >= capacity
    }

    predicate Bounded() {
      |items| <= capacity
    }
  }

  /** `make(chan []byte, capacity)` */
  function MakeChan(capacity: nat): (q: Chan)
    ensures q.items == [] && q.capacity == capacity && !q.closed
    ensures q.Bounded()
  {
    Chan([], capacity, false)
  }

  /** `select { case q <- p: default: }`: the payload is buffered when
      there is room and dropped otherwise. Sending on a closed channel
      panics in Go, hence the precondition. */
  function TrySend(q: Chan, p: Payload): (r: Chan)
    requires !q.closed
    ensures r.capacity == q.capacity && !r.closed
    ensures q.Full() ==> r == q
    ensures !q.Full() ==> r.items == q.items + [p]
    ensures q.Bounded() ==> r.Bounded()
  {
    if q.Full() then q else q.(items := q.items + [p])
  }

  /** `close(q)`: buffered payloads stay readable. Closing twice panics. */
  function Close(q: Chan): (r: Chan)
    requires !q.closed
    ensures r.closed && r.items == q.items && r.capacity == q.capacity
  {
    q.(closed := true)
  }

  /** `<-q` on a non-empty queue: the oldest payload, and the queue
      without it. */
  function Receive(q: Chan): (res: (Payload, Chan))
    requires q.items != []
    ensures res.0 == q.items[0] && res.1.items == q.items[1..]
    ensures res.1.capacity == q.capacity && res.1.closed == q.closed
    ensures q.Bounded() ==> res.1.Bounded()
    ensures [res.0] + res.1.items == q.items
  {
    (q.items[0], q.(items := q.items[1..]))
  }

  /** A run of blocking sends `q <- ps[0]; q <- ps[1]; ...` made before any
      reader exists: each send either finds room or blocks forever, which
      is reported as `None`. */
  function SendAll(q: Chan, ps: seq<Payload>): (r: Option<Chan>)
    requires !q.closed && q.Bounded()
    ensures r.Some? <==> |q.items| + |ps| <= q.capacity
    ensures r.Some? ==> r.value.items == q.items + ps
    ensures r.Some? ==> r.value.capacity == q.capacity && !r.value.closed
    decreases |ps|
  {
    if ps == [] then Some(q)
    else if q.Full() then None
    else
      var r := SendAll(q.(items := q.items + [ps[0]]), ps[1..]);
      assert q.items + [ps[0]] + ps[1..] == q.items + ps;
      r
  }
}

=== FILE: enumeration.dfy ===
/** Go's `for k := range m` visits every key of a map exactly once, in an
    unspecified order. The model makes that order an explicit sequence that
    must enumerate the key set; the lemmas here show that any two such
    orders are permutations of each other. */
module Enumeration {

  predicate Distinct<T(==)>(s: seq<T>) {
    forall i, j :: 0 <= i < j < |s| ==> s[i] != s[j]
  }

  /** `s` lists every element of `keys` exactly once and nothing else. */
  predicate Enumerates<T(==)>(s: seq<T>, keys: set<T>) {
    && Distinct(s)
    && (forall i :: 0 <= i < |s| ==> s[i] in keys)
    && (forall k :: k in keys ==> k in s)
  }

  /** Adding an element grows a set by one exactly when it is new. */
  lemma InsertSize<T>(s: set<T>, x: T)
    ensures |s + {x}| == |s| + (if x in s then 0 else 1)
  {
    if x in s {
      assert s + {x} == s;
    }
  }

  lemma SubsetSize<T>(a: set<T>, b: set<T>)
    requires a <= b
    ensures |a| <= |b|
  {
    assert b == a + (b - a);
  }

  lemma SubsetSameSize<T>(a: set<T>, b: set<T>)
    requires a <= b && |a| == |b|
    ensures a == b
  {
    assert b == a + (b - a);
    assert |b - a| == 0;
  }

  /** Removing the head of an enumeration enumerates the rest of the keys. */
  lemma EnumerationTail<T>(s: seq<T>, keys: set<T>)
    requires s != [] && Enumerates(s, keys)
    ensures Enumerates(s[1..], keys - {s[0]})
  {
    forall k | k in keys - {s[0]}
      ensures k in s[1..]
    {
      var i :| 0 <= i < |s| && s[i] == k;
      assert s[1..][i - 1] == k;
    }
  }

  lemma {:induction false} EnumerationSize<T>(s: seq<T>, keys: set<T>)
    requires Enumerates(s, keys)
    ensures |s| == |keys|
  {
    if s != [] {
      EnumerationTail(s, keys);
      EnumerationSize(s[1..], keys - {s[0]});
    }
  }

  lemma {:induction false} DistinctCount<T>(s: seq<T>, x: T)
    requires Distinct(s)
    ensures multiset(s)[x] == if x in s then 1 else 0
  {
    if s != [] {
      assert s == [s[0]] + s[1..];
      assert Distinct(s[1..]);
      DistinctCount(s[1..], x);
      if x == s[0] {
        assert x !in s[1..];
      }
    }
  }

  /** Two enumerations of the same key set hold the same elements. */
  lemma EnumerationsPermute<T>(a: seq<T>, b: seq<T>, keys: set<T>)
    requires Enumerates(a, keys) && Enumerates(b, keys)
    ensures multiset(a) == multiset(b)
  {
    forall x
      ensures multiset(a)[x] == multiset(b)[x]
    {
      DistinctCount(a, x);
      DistinctCount(b, x);
    }
  }

  /** `f` applied to each element, in order. */
  function MapSeq<A, B>(f: A -> B, s: seq<A>): (r: seq<B>)
    ensures |r| == |s|
  {
    seq(|s|, i requires 0 <= i < |s| => f(s[i]))
  }

  /** Removing the element at index `k` removes one copy of it. */
  lemma MultisetRemoveAt<T>(b: seq<T>, k: nat)
    requires k < |b|
    ensures multiset(b[..k] + b[k + 1..]) == multiset(b) - multiset{b[k]}
  {
    assert b == b[..k] + [b[k]] + b[k + 1..];
  }

  lemma MapSeqConcat<A, B>(f: A -> B, x: seq<A>, y: seq<A>)
    ensures MapSeq(f, x + y) == MapSeq(f, x) + MapSeq(f, y)
  {
  }

  /** Inserting the same element on both sides keeps the images permuted. */
  lemma MapPermuteStep<A, B>(f: A -> B, x: A, t: seq<A>, l: seq<A>, r: seq<A>)
    requires multiset(MapSeq(f, t)) == multiset(MapSeq(f, l + r))
    ensures multiset(MapSeq(f, [x] + t)) == multiset(MapSeq(f, l + ([x] + r)))
  {
    MapSeqConcat(f, [x], t);
    MapSeqConcat(f, l, [x] + r);
    MapSeqConcat(f, [x], r);
    MapSeqConcat(f, l, r);
    var fx, fl, fr := MapSeq(f, [x]), MapSeq(f, l), MapSeq(f, r);
    assert multiset(MapSeq(f, [x] + t)) == multiset(fx) + (multiset(fl) + multiset(fr));
    assert multiset(MapSeq(f, l + ([x] + r))) == multiset(fl) + (multiset(fx) + multiset(fr));
  }

  /** Dropping the head removes one copy of it. */
  lemma MultisetTail<T>(a: seq<T>)
    requires a != []
    ensures multiset(a[1..]) == multiset(a) - multiset{a[0]}
  {
    assert a == [a[0]] + a[1..];
  }

  /** A position holding `x` in a sequence that contains it. */
  lemma IndexOf<T>(b: seq<T>, x: T) returns (k: nat)
    requires x in multiset(b)
    ensures k < |b| && b[k] == x
  {
    k :| 0 <= k < |b| && b[k] == x;
  }

  /** Finds the head of `a` inside its permutation `b`; the remainders are
      permutations of each other. */
  lemma MatchHead<T>(a: seq<T>, b: seq<T>) returns (k: nat)
    requires a != [] && multiset(a) == multiset(b)
    ensures k < |b| && b[k] == a[0]
    ensures multiset(a[1..]) == multiset(b[..k] + b[k + 1..])
  {
    k := IndexOf(b, a[0]);
    MultisetRemoveAt(b, k);
    MultisetTail(a);
  }

  /** Mapping over two permutations of each other yields permutations. */
  lemma {:induction false} MapPermute<A, B>(f: A -> B, a: seq<A>, b: seq<A>)
    requires multiset(a) == multiset(b)
    ensures multiset(MapSeq(f, a)) == multiset(MapSeq(f, b))
    decreases |a|
  {
    if a == [] {
      assert |b| == |multiset(b)| == 0;
    } else {
      var x := a[0];
      var k := MatchHead(a, b);
      MapPermute(f, a[1..], b[..k] + b[k + 1..]);
      MapPermuteStep(f, x, a[1..], b[..k], b[k + 1..]);
      assert a == [x] + a[1..];
      assert b == b[..k] + ([x] + b[k + 1..]);
    }
  }
}

=== FILE: hub.dfy ===
/** The room hub of rooms.go as a sequential transition system. The Go
    event loop receives one register, unregister or broadcast request at a
    time; each case below is one atomic update of the room state. The
    relay goroutines of the publish/subscribe bridge are tracked one by
    one, together with the `subActive` flag that is meant to stand for
    them; a relay forwarding a payload into the local broadcast path, and
    a relay ending, are events of their own. */
module Hub {
  import opened Wire
  import opened Channels
  import opened Session
  import opened Enumeration

  /** The bridge state of a room: the `subActive` flag, the number of the
      current `stop` channel (each `ensureSubscriber` start makes a new
      one; `NewRoom` makes number 0), the relays still forwarding, and the
      relays told to stop whose deferred reset has not yet run. A relay is
      named by the number of the `stop` channel made when it started. */
  datatype Bridge = Bridge(active: bool, stopGen: nat, live: set<nat>, stopping: set<nat>)

  /** `Room` of rooms.go. `sessions` holds every client created for this
      room (a Go `*Client` whose `Room` is this room); `members` is the key
      set of `Clients`; `ready` is `Ready`; `bridge` stands for
      `subActive`, `stop`, `pubsub` and the relay goroutines. */
  datatype Room = Room(
    code: string,
    sessions: Sessions,
    members: set<ClientId>,
    ready: int,
    bridge: Bridge)

  /** `NewRoom` */
  function NewRoom(code: string): (r: Room)
    ensures r.code == code && r.members == {} && r.ready == 0
    ensures !r.bridge.active && r.bridge.live == {} && r.bridge.stopping == {}
    ensures Valid(r)
  {
    Room(code, map[], {}, 0, Bridge(false, 0, {}, {}))
  }

  /** Members whose own `Ready` flag is set. */
  function ReadyMembers(r: Room): set<ClientId> {
    set m | m in r.members && m in r.sessions && r.sessions[m].ready
  }

  /** The flag tells the truth about the relays: while it is set exactly
      the relay of the current `stop` channel forwards, and while it is
      clear none does. */
  predicate FlagTracksRelays(b: Bridge) {
    b.live == if b.active then {b.stopGen} else {}
  }

  /** What every room reachable under rooms.go as written satisfies:
      members are known sessions with open queues, no queue exceeds its
      capacity, the counter equals the number of ready members, and the
      flag is only set in a non-empty room. */
  ghost predicate Sound(r: Room) {
    && WellKeyed(r.sessions)
    && r.members <= r.sessions.Keys
    && SendsOpen(r.sessions, r.members)
    && (forall k :: k in r.sessions ==> r.sessions[k].send.Bounded())
    && r.ready == |ReadyMembers(r)|
    && (r.bridge.active ==> r.members != {})
  }

  /** What every room reachable with the corrected relay reset satisfies:
      it is sound, and the flag tracks the forwarding relays. */
  ghost predicate Valid(r: Room) {
    Sound(r) && FlagTracksRelays(r.bridge)
  }

  /** The counter never goes negative and never exceeds the member count. */
  lemma ReadyBounds(r: Room)
    requires Sound(r)
    ensures 0 <= r.ready <= |r.members|
  {
    SubsetSize(ReadyMembers(r), r.members);
  }

  /** In a valid room at most one relay forwards, and none does once
      the room is empty. */
  lemma AtMostOneRelay(r: Room)
    requires Valid(r)
    ensures |r.bridge.live| <= 1
    ensures r.members == {} ==> r.bridge.live == {}
  {
  }

  /** `ensureSubscriber`: when the flag is clear, a new `stop` channel is
      made, the flag set and a new relay started (the second component);
      when it is set, nothing happens, whatever relays are running. */
  function EnsureSubscriber(b: Bridge): (res: (Bridge, bool))
    ensures res.0.active
    ensures res.1 <==> !b.active
    ensures res.1 ==> res.0 == Bridge(true, b.stopGen + 1, b.live + {b.stopGen + 1}, b.stopping)
    ensures !res.1 ==> res.0 == b
  {
    if b.active then (b, false)
    else (b.(active := true, stopGen := b.stopGen + 1, live := b.live + {b.stopGen + 1}), true)
  }

  /** `stopSubscriber`: when the flag is set, the current `stop` channel is
      closed (the second component) and the flag cleared. The model takes
      every forwarding relay out of forwarding at that point. That is
      exact for the relay of the current channel, and an approximation
      for older ones: a relay evaluates the `stop` field once per turn of
      its loop, so one still waiting on an older channel goes on
      forwarding until it next reads the field. When the flag is clear
      nothing happens, even if relays are still forwarding. */
  function StopSubscriber(b: Bridge): (res: (Bridge, bool))
    ensures !res.0.active
    ensures res.1 <==> b.active
    ensures res.1 ==> res.0 == Bridge(false, b.stopGen, {}, b.stopping + b.live)
    ensures !res.1 ==> res.0 == b
  {
    if !b.active then (b, false)
    else (b.(active := false, live := {}, stopping := b.stopping + b.live), true)
  }

  /** Two starts in a row start one relay; two stops in a row close one
      `stop` channel. */
  lemma SubscriberIdempotent(b: Bridge)
    ensures EnsureSubscriber(EnsureSubscriber(b).0) == (EnsureSubscriber(b).0, false)
    ensures StopSubscriber(StopSubscriber(b).0) == (StopSubscriber(b).0, false)
  {
  }

  /** The deferred reset of relay `g` as rooms.go writes it: the relay is
      gone and the flag is cleared, whichever relay the flag stood for. */
  function RelayEndsAsWritten(b: Bridge, g: nat): (b': Bridge)
    requires g in b.live || g in b.stopping
    ensures !b'.active && b'.stopGen == b.stopGen
    ensures b'.live == b.live - {g} && b'.stopping == b.stopping - {g}
  {
    Bridge(false, b.stopGen, b.live - {g}, b.stopping - {g})
  }

  /** The deferred reset as intended: the flag is cleared only while the
      room's `stop` channel is still the one relay `g` started with, that
      is, only when `g` is the relay the flag stands for. */
  function RelayEnds(b: Bridge, g: nat): (b': Bridge)
    requires g in b.live || g in b.stopping
    ensures b'.active <==> b.active && g != b.stopGen
    ensures b'.stopGen == b.stopGen
    ensures b'.live == b.live - {g} && b'.stopping == b.stopping - {g}
  {
    Bridge(b.active && g != b.stopGen, b.stopGen, b.live - {g}, b.stopping - {g})
  }

  /** The corrected reset keeps the flag truthful; starting and stopping
      do too. */
  lemma BridgeStepsTrackRelays(b: Bridge, g: nat)
    ensures FlagTracksRelays(b) ==> FlagTracksRelays(EnsureSubscriber(b).0)
    ensures FlagTracksRelays(b) ==> FlagTracksRelays(StopSubscriber(b).0)
    ensures FlagTracksRelays(b) && (g in b.live || g in b.stopping) ==> FlagTracksRelays(RelayEnds(b, g))
  {
  }

  /** The register case: the relay is ensured, the client joins, and every
      member whose queue has room (the newcomer included) is told
      "joined: <newcomer's name>". */
  function Register(r: Room, id: ClientId): (r': Room)
    requires id in r.sessions
    requires SendsOpen(r.sessions, r.members + {id})
    ensures r'.code == r.code && r'.ready == r.ready && r'.bridge == EnsureSubscriber(r.bridge).0
    ensures r'.members == r.members + {id}
    ensures r'.sessions.Keys == r.sessions.Keys
    ensures forall k :: k in r.sessions && k !in r'.members ==> r'.sessions[k] == r.sessions[k]
    ensures forall k :: k in r'.members && r.sessions[k].send.Full() ==> r'.sessions[k] == r.sessions[k]
    ensures forall k :: k in r'.members && !r.sessions[k].send.Full() ==>
              r'.sessions[k].send.items == r.sessions[k].send.items + [Raw(JoinedNotice(r.sessions[id].name))]
    ensures forall k :: k in r.sessions ==> r'.sessions[k].(send := r.sessions[k].send) == r.sessions[k]
    ensures forall k :: k in r.sessions ==> r'.sessions[k].send.closed == r.sessions[k].send.closed
    ensures forall k :: k in r.sessions ==> r'.sessions[k].send.capacity == r.sessions[k].send.capacity
  {
    var r1 := r.(bridge := EnsureSubscriber(r.bridge).0);
    var ms := r1.members + {id};
    var notice := Raw(JoinedNotice(r.sessions[id].name));
    r1.(members := ms, sessions := Deliver(r1.sessions, ms, _ => notice))
  }

  /** Registering never takes anything out of a queue or renames a
      client: each session's queue only grows at its end. */
  lemma RegisterExtendsQueues(r: Room, id: ClientId, k: ClientId)
    requires id in r.sessions && SendsOpen(r.sessions, r.members + {id}) && k in r.sessions
    ensures var c := Register(r, id).sessions[k];
            && c.name == r.sessions[k].name
            && |r.sessions[k].send.items| <= |c.send.items|
            && c.send.items[..|r.sessions[k].send.items|] == r.sessions[k].send.items
  {
    var r' := Register(r, id);
    assert r'.sessions[k].(send := r.sessions[k].send) == r.sessions[k];
    if k in r'.members && !r.sessions[k].send.Full() {
      var q0 := r.sessions[k].send.items;
      assert r'.sessions[k].send.items == q0 + [Raw(JoinedNotice(r.sessions[id].name))];
    }
  }

  /** The unregister case. A member is removed, its queue closed and the
      counter lowered if it was ready (never below zero); anyone else is
      ignored. A room left empty runs `stopSubscriber`. */
  function Unregister(r: Room, id: ClientId): (r': Room)
    requires id in r.sessions
    requires id in r.members ==> !r.sessions[id].send.closed
    ensures r'.code == r.code
    ensures r'.members == r.members - {id}
    ensures id !in r.members ==> r'.sessions == r.sessions && r'.ready == r.ready
    ensures id in r.members ==>
              && r'.sessions == r.sessions[id := r.sessions[id].(send := Close(r.sessions[id].send))]
              && r'.ready == (if r.sessions[id].ready && r.ready > 0 then r.ready - 1 else r.ready)
    ensures r.ready >= 0 ==> r'.ready >= 0
    ensures r'.bridge == if r'.members == {} then StopSubscriber(r.bridge).0 else r.bridge
  {
    var r1 :=
      if id in r.members then
        var c := r.sessions[id];
        r.(members := r.members - {id},
           ready := if c.ready && r.ready > 0 then r.ready - 1 else r.ready,
           sessions := r.sessions[id := c.(send := Close(c.send))])
      else r;
    if r1.members == {} then r1.(bridge := StopSubscriber(r1.bridge).0) else r1
  }

  /** In a sound room, unregistering someone who is not a member
      changes nothing at all. */
  lemma UnregisterNonMemberNoop(r: Room, id: ClientId)
    requires Sound(r) && id in r.sessions && id !in r.members
    ensures Unregister(r, id) == r
  {
  }

  /** In a sound room the floor at zero never bites: a ready member
      leaving lowers the counter by exactly one, any other member leaves it. */
  lemma UnregisterMemberCount(r: Room, id: ClientId)
    requires Sound(r) && id in r.members
    ensures Unregister(r, id).ready == r.ready - (if r.sessions[id].ready then 1 else 0)
    ensures Unregister(r, id).sessions[id].send.closed
    ensures |Unregister(r, id).members| == |r.members| - 1
  {
    if r.sessions[id].ready {
      assert id in ReadyMembers(r);
    }
  }

  /** The broadcast case: every member whose queue has room gets `p`;
      membership, the counter and the bridge stay as they were. */
  function Broadcast(r: Room, p: Payload): (r': Room)
    requires SendsOpen(r.sessions, r.members)
    ensures r'.code == r.code && r'.members == r.members
    ensures r'.ready == r.ready && r'.bridge == r.bridge
    ensures r'.sessions.Keys == r.sessions.Keys
    ensures forall k :: k in r.sessions && k !in r.members ==> r'.sessions[k] == r.sessions[k]
    ensures forall k :: k in r.members && r.sessions[k].send.Full() ==> r'.sessions[k] == r.sessions[k]
    ensures forall k :: k in r.members && !r.sessions[k].send.Full() ==>
              r'.sessions[k].send.items == r.sessions[k].send.items + [p]
    ensures forall k :: k in r.sessions ==> r'.sessions[k].(send := r.sessions[k].send) == r.sessions[k]
    ensures forall k :: k in r.sessions ==> r'.sessions[k].send.closed == r.sessions[k].send.closed
    ensures forall k :: k in r.sessions ==> r'.sessions[k].send.capacity == r.sessions[k].send.capacity
  {
    r.(sessions := Deliver(r.sessions, r.members, _ => p))
  }

  /** A payload received by forwarding relay `g` goes to the local
      broadcast path (never back out to the shared channel), whatever the
      flag says: the relay loop never reads it. Each forwarding relay has
      its own subscription, so each delivers every published payload. */
  function Relay(r: Room, g: nat, p: Payload): (r': Room)
    requires g in r.bridge.live && SendsOpen(r.sessions, r.members)
    ensures r'.code == r.code && r'.members == r.members
    ensures r'.ready == r.ready && r'.bridge == r.bridge
    ensures r'.sessions.Keys == r.sessions.Keys
    ensures forall k :: k in r.sessions && k !in r.members ==> r'.sessions[k] == r.sessions[k]
    ensures forall k :: k in r.members && r.sessions[k].send.Full() ==> r'.sessions[k] == r.sessions[k]
    ensures forall k :: k in r.members && !r.sessions[k].send.Full() ==>
              r'.sessions[k].send.items == r.sessions[k].send.items + [p]
    ensures forall k :: k in r.sessions ==> r'.sessions[k].(send := r.sessions[k].send) == r.sessions[k]
    ensures forall k :: k in r.sessions ==> r'.sessions[k].send.closed == r.sessions[k].send.closed
    ensures forall k :: k in r.sessions ==> r'.sessions[k].send.capacity == r.sessions[k].send.capacity
  {
    Broadcast(r, p)
  }

  /** Two forwarding relays each deliver a published payload, so a member
      with room for both receives it twice. */
  lemma TwoRelaysDeliverTwice(r: Room, g: nat, h: nat, p: Payload, k: ClientId)
    requires g in r.bridge.live && h in r.bridge.live && SendsOpen(r.sessions, r.members)
    requires k in r.members && |r.sessions[k].send.items| + 2 <= r.sessions[k].send.capacity
    ensures var r1 := Relay(r, g, p);
            SendsOpen(r1.sessions, r1.members) && h in r1.bridge.live
            && Relay(r1, h, p).sessions[k].send.items == r.sessions[k].send.items + [p, p]
  {
    var r1 := Relay(r, g, p);
    var q := r.sessions[k].send.items;
    assert r1.sessions[k].send.items == q + [p];
    assert !r1.sessions[k].send.Full();
    assert Relay(r1, h, p).sessions[k].send.items == q + [p] + [p];
  }

  /** The write pump takes the oldest payload out of client `id`'s queue.
      Nothing else changes; a closed queue stays closed. */
  function Drain(r: Room, id: ClientId): (r': Room)
    requires id in r.sessions && r.sessions[id].send.items != []
    ensures r'.code == r.code && r'.members == r.members && r'.ready == r.ready && r'.bridge == r.bridge
    ensures r'.sessions.Keys == r.sessions.Keys
    ensures forall k :: k in r.sessions && k != id ==> r'.sessions[k] == r.sessions[k]
    ensures r'.sessions[id].send.items == r.sessions[id].send.items[1..]
    ensures r'.sessions[id].(send := r.sessions[id].send) == r.sessions[id]
    ensures r'.sessions[id].send.closed == r.sessions[id].send.closed
    ensures r'.sessions[id].send.capacity == r.sessions[id].send.capacity
  {
    var c := r.sessions[id];
    r.(sessions := r.sessions[id := c.(send := Receive(c.send).1)])
  }

  /** The read pump's readiness update (client.go), performed under the
      room lock: the client's flag is set and the counter goes up by one. */
  function MarkReady(r: Room, id: ClientId): (r': Room)
    requires id in r.sessions && !r.sessions[id].ready
    ensures r'.ready == r.ready + 1 && r'.members == r.members
    ensures r'.sessions == r.sessions[id := r.sessions[id].(ready := true)]
    ensures r'.code == r.code && r'.bridge == r.bridge
  {
    r.(sessions := r.sessions[id := r.sessions[id].(ready := true)], ready := r.ready + 1)
  }

  /** `allReady`: a counter test which, in a sound room, means exactly
      that the room is non-empty and every member has signalled
      readiness. */
  function AllReady(r: Room): (b: bool)
    ensures Sound(r) ==> (b <==> r.members != {} && forall m :: m in r.members ==> r.sessions[m].ready)
  {
    CounterCountsReady(r);
    |r.members| > 0 && |r.members| == r.ready
  }

  /** In a sound room the counter reaches the number of members exactly
      when every member is ready. */
  lemma CounterCountsReady(r: Room)
    ensures Sound(r) ==> (r.ready == |r.members| <==> forall m :: m in r.members ==> r.sessions[m].ready)
  {
    if Sound(r) {
      var rm := ReadyMembers(r);
      assert rm <= r.members;
      if r.ready == |r.members| {
        SubsetSameSize(rm, r.members);
      }
      if forall m :: m in r.members ==> r.sessions[m].ready {
        assert rm == r.members;
      }
    }
  }

  /** `broadcastState`: the "state" envelope that rooms.go publishes on the
      room's shared channel, listing every member once. */
  function BroadcastState(r: Room, order: seq<ClientId>): (p: Payload)
    requires Sound(r) && Enumerates(order, r.members)
    ensures ListsRoom(p, r.code, r.sessions, r.members)
  {
    StateMessageListsRoom(r.code, r.sessions, r.members, order);
    StateMessage(Snapshot(r.code, r.sessions, r.members, order))
  }

  /** The snapshot published at the end of the register case lists the
      newcomer, with its name, liveness and readiness, once among the
      members. */
  lemma JoinPublishesNewcomer(r: Room, id: ClientId, order: seq<ClientId>)
    requires Sound(r) && Admissible(r, Join(id)) && Enumerates(order, r.members + {id})
    ensures Sound(Register(r, id)) && (Valid(r) ==> Valid(Register(r, id)))
    ensures var st := BroadcastState(Register(r, id), order).env.data.state;
            && |st.players| == |r.members| + (if id in r.members then 0 else 1)
            && exists i :: 0 <= i < |st.players|
                 && st.players[i] == PlayerSnap(id, r.sessions[id].name, r.sessions[id].alive, r.sessions[id].ready)
  {
    RegisterKeepsValid(r, id);
    var r' := Register(r, id);
    var st := Snapshot(r'.code, r'.sessions, r'.members, order);
    assert BroadcastState(r', order).env.data.state == st;
    InsertSize(r.members, id);
    assert |st.players| == |r'.members| == |r.members + {id}|;
    var c, c' := r.sessions[id], r'.sessions[id];
    assert c'.(send := c.send) == c;
    assert c'.name == c.name && c'.alive == c.alive && c'.ready == c.ready;
    SnapshotListsMember(r'.code, r'.sessions, r'.members, order, id);
  }

  /** One request handled by the room. */
  datatype Event =
    | Join(id: ClientId)
    | Leave(id: ClientId)
    | Send(payload: Payload)
    | Relayed(relay: nat, payload: Payload)
    | RelayEnded(relay: nat)
    | Drained(id: ClientId)
    | Agree(id: ClientId)

  /** The requests the server can actually issue: a client registers once,
      fresh (not ready, open queue); only a member's read pump signals
      readiness. */
  ghost predicate Admissible(r: Room, e: Event) {
    match e
    case Join(id) =>
      id in r.sessions && (id !in r.members ==> !r.sessions[id].ready && !r.sessions[id].send.closed)
    case Leave(id) => id in r.sessions
    case Agree(id) => id in r.members
    case Relayed(g, _) => g in r.bridge.live
    case RelayEnded(g) => g in r.bridge.live || g in r.bridge.stopping
    case Drained(id) => id in r.sessions && r.sessions[id].send.items != []
    case Send(_) => true
  }

  /** A bridge-only change keeps a room sound as long as the flag is set
      only in a non-empty room. */
  lemma BridgeChangeKeepsSound(r: Room, b: Bridge)
    requires Sound(r) && (b.active ==> r.members != {})
    ensures Sound(r.(bridge := b))
  {
    assert ReadyMembers(r.(bridge := b)) == ReadyMembers(r);
  }

  lemma RegisterKeepsValid(r: Room, id: ClientId)
    requires Sound(r) && Admissible(r, Join(id))
    ensures Sound(Register(r, id))
    ensures Valid(r) ==> Valid(Register(r, id))
  {
    var r' := Register(r, id);
    assert (FlagTracksRelays(r.bridge) ==> FlagTracksRelays(r'.bridge)) && id in r'.members by {
      BridgeStepsTrackRelays(r.bridge, 0);
    }
    assert SendsOpen(r'.sessions, r'.members);
    assert ReadyMembers(r') == ReadyMembers(r) by {
      forall m | m in ReadyMembers(r')
        ensures m in ReadyMembers(r)
      {
        assert r'.sessions[m].ready == r.sessions[m].ready;
      }
    }
  }

  /** A leaving member takes its own ready flag, and only that, out of the
      ready set. */
  lemma ReadyAfterLeave(r: Room, id: ClientId)
    requires id in r.members && r.members <= r.sessions.Keys && !r.sessions[id].send.closed
    ensures ReadyMembers(Unregister(r, id)) == ReadyMembers(r) - {id}
  {
    var r' := Unregister(r, id);
    forall m | m in ReadyMembers(r) - {id}
      ensures m in ReadyMembers(r')
    {
      assert r'.sessions[m] == r.sessions[m];
    }
  }

  /** A leaving member's queue is closed and its ready flag, if set, is
      taken off the counter: the remaining members still have open queues
      and the counter still equals the number of ready members. */
  lemma LeaveKeepsCounter(r: Room, id: ClientId)
    requires Sound(r) && id in r.members
    ensures var r' := Unregister(r, id);
            r'.ready == |ReadyMembers(r')| && SendsOpen(r'.sessions, r'.members)
  {
    var r' := Unregister(r, id);
    var rm := ReadyMembers(r);
    ReadyAfterLeave(r, id);
    if r.sessions[id].ready {
      assert id in rm;
      assert |rm - {id}| == |rm| - 1;
    } else {
      assert rm - {id} == rm;
    }
    assert r'.sessions == r.sessions[id := r.sessions[id].(send := Close(r.sessions[id].send))];
  }

  lemma UnregisterKeepsValid(r: Room, id: ClientId)
    requires Sound(r) && Admissible(r, Leave(id))
    ensures Sound(Unregister(r, id))
    ensures Valid(r) ==> Valid(Unregister(r, id))
  {
    BridgeStepsTrackRelays(r.bridge, 0);
    if id in r.members {
      LeaveKeepsCounter(r, id);
    }
  }

  lemma BroadcastKeepsValid(r: Room, p: Payload)
    requires Sound(r)
    ensures Sound(Broadcast(r, p))
    ensures Valid(r) ==> Valid(Broadcast(r, p))
  {
    var r' := Broadcast(r, p);
    assert ReadyMembers(r') == ReadyMembers(r) by {
      forall m | m in ReadyMembers(r')
        ensures m in ReadyMembers(r)
      {
        assert r'.sessions[m].ready == r.sessions[m].ready;
      }
    }
  }

  lemma DrainKeepsValid(r: Room, id: ClientId)
    requires Sound(r) && id in r.sessions && r.sessions[id].send.items != []
    ensures Sound(Drain(r, id))
    ensures Valid(r) ==> Valid(Drain(r, id))
  {
    var r' := Drain(r, id);
    assert ReadyMembers(r') == ReadyMembers(r) by {
      forall m | m in ReadyMembers(r')
        ensures m in ReadyMembers(r)
      {
        assert r'.sessions[m].ready == r.sessions[m].ready;
      }
    }
  }

  lemma MarkReadyKeepsValid(r: Room, id: ClientId)
    requires Sound(r) && id in r.members && !r.sessions[id].ready
    ensures Sound(MarkReady(r, id))
    ensures Valid(r) ==> Valid(MarkReady(r, id))
  {
    var r' := MarkReady(r, id);
    assert ReadyMembers(r') == ReadyMembers(r) + {id};
  }

  /** One request applied to the room, with the corrected relay reset
      (`RelayEnds`); every admissible request keeps the room sound, and
      valid when it was. A readiness signal from a client already marked
      ready leaves the room as it is. */
  function Step(r: Room, e: Event): (r': Room)
    requires Sound(r) && Admissible(r, e)
    ensures Sound(r')
    ensures Valid(r) ==> Valid(r')
  {
    match e
    case Join(id) => RegisterKeepsValid(r, id); Register(r, id)
    case Leave(id) => UnregisterKeepsValid(r, id); Unregister(r, id)
    case Send(p) => BroadcastKeepsValid(r, p); Broadcast(r, p)
    case Relayed(g, p) => BroadcastKeepsValid(r, p); Relay(r, g, p)
    case RelayEnded(g) =>
      BridgeChangeKeepsSound(r, RelayEnds(r.bridge, g));
      BridgeStepsTrackRelays(r.bridge, g);
      r.(bridge := RelayEnds(r.bridge, g))
    case Drained(id) => DrainKeepsValid(r, id); Drain(r, id)
    case Agree(id) =>
      if r.sessions[id].ready then r else MarkReadyKeepsValid(r, id); MarkReady(r, id)
  }

  /** Every request of `es` is admissible when it is handled. */
  ghost predicate AdmissibleRun(r: Room, es: seq<Event>)
    decreases |es|
  {
    Valid(r) && (es != [] ==> Admissible(r, es[0]) && AdmissibleRun(Step(r, es[0]), es[1..]))
  }

  /** The room after handling `es` in order. */
  function Run(r: Room, es: seq<Event>): (r': Room)
    requires AdmissibleRun(r, es)
    ensures Valid(r')
    ensures 0 <= r'.ready <= |r'.members|
    ensures |r'.bridge.live| <= 1
    ensures r'.members == {} ==> r'.bridge.live == {}
    ensures r'.code == r.code
    decreases |es|
  {
    if es == [] then ReadyBounds(r); AtMostOneRelay(r); r else Run(Step(r, es[0]), es[1..])
  }

  /** One request applied to the room as rooms.go writes it: the same as
      `Step` except that a relay's deferred reset clears the flag
      unconditionally. Every admissible request still keeps the room
      sound; only the flag's account of the relays can be lost. */
  function StepAsWritten(r: Room, e: Event): (r': Room)
    requires Sound(r) && Admissible(r, e)
    ensures Sound(r')
    ensures !e.RelayEnded? ==> r' == Step(r, e)
    ensures e.RelayEnded? ==> !r'.bridge.active && r'.bridge.live == r.bridge.live - {e.relay}
  {
    match e
    case RelayEnded(g) =>
      BridgeChangeKeepsSound(r, RelayEndsAsWritten(r.bridge, g));
      r.(bridge := RelayEndsAsWritten(r.bridge, g))
    case _ => Step(r, e)
  }

  /** Every request of `es` is admissible, under rooms.go as written, when
      it is handled. */
  ghost predicate AdmissibleRunAsWritten(r: Room, es: seq<Event>)
    decreases |es|
  {
    Sound(r) && (es != [] ==> Admissible(r, es[0]) && AdmissibleRunAsWritten(StepAsWritten(r, es[0]), es[1..]))
  }

  /** The room after handling `es` in order under rooms.go as written:
      whatever the relays do, the room stays sound, its counter lies
      between zero and the member count, and the flag is only set in a
      non-empty room. */
  function RunAsWritten(r: Room, es: seq<Event>): (r': Room)
    requires AdmissibleRunAsWritten(r, es)
    ensures Sound(r')
    ensures 0 <= r'.ready <= |r'.members|
    ensures r'.bridge.active ==> r'.members != {}
    ensures r'.code == r.code
    decreases |es|
  {
    if es == [] then ReadyBounds(r); r else RunAsWritten(StepAsWritten(r, es[0]), es[1..])
  }

  /** A room nobody has joined yet, holding open sessions "a", "b" and
      "c", as at the start of the runs below. */
  predicate FreshWithThree(r: Room) {
    && r.members == {} && r.bridge == Bridge(false, 0, {}, {})
    && "a" in r.sessions && !r.sessions["a"].send.closed
    && "b" in r.sessions && !r.sessions["b"].send.closed
    && "c" in r.sessions && !r.sessions["c"].send.closed
  }

  /** The common start of both runs below: "a" joins (relay 1 starts) and
      leaves (relay 1 is told to stop), then "b" joins (relay 2 starts). */
  function JoinLeaveJoin(r0: Room): (r3: Room)
    requires FreshWithThree(r0)
    ensures r3.members == {"b"} && r3.bridge == Bridge(true, 2, {2}, {1})
    ensures "b" in r3.sessions && !r3.sessions["b"].send.closed
    ensures "c" in r3.sessions && !r3.sessions["c"].send.closed
  {
    var r1 := Register(r0, "a");
    assert r1.members == {"a"} && r1.bridge == Bridge(true, 1, {1}, {});
    assert !r1.sessions["a"].send.closed && !r1.sessions["b"].send.closed && !r1.sessions["c"].send.closed;
    var r2 := Unregister(r1, "a");
    assert r1.members - {"a"} == {};
    assert r2.members == {} && r2.bridge == Bridge(false, 1, {}, {1});
    assert r2.sessions["b"] == r1.sessions["b"] && r2.sessions["c"] == r1.sessions["c"];
    var r3 := Register(r2, "b");
    assert r3.sessions["c"].send.closed == r2.sessions["c"].send.closed;
    r3
  }

  /** rooms.go as written: after the start of `JoinLeaveJoin`, relay 1's
      deferred reset runs, clearing the flag while relay 2 still forwards.
      When "c" joins next, relay 3 starts beside relay 2, so every
      published payload reaches the room twice; when "b" leaves instead,
      the room is empty and relay 2 is never told to stop. */
  lemma StaleResetLeavesRelayBehind(r0: Room)
    requires FreshWithThree(r0)
    ensures var r3 := JoinLeaveJoin(r0);
            var r4 := r3.(bridge := RelayEndsAsWritten(r3.bridge, 1));
            && Register(r4, "c").members == {"b", "c"} && Register(r4, "c").bridge.live == {2, 3}
            && Unregister(r4, "b").members == {} && Unregister(r4, "b").bridge.live == {2}
  {
    var r3 := JoinLeaveJoin(r0);
    var r4 := r3.(bridge := RelayEndsAsWritten(r3.bridge, 1));
    assert r4.bridge == Bridge(false, 2, {2}, {});
    assert {"b"} - {"b"} == {};
  }

  /** The same two runs with the intended reset: relay 1's reset leaves
      the flag alone, "c" joining starts nothing, and "b" leaving stops
      relay 2. */
  lemma StaleResetHarmlessWhenCorrected(r0: Room)
    requires FreshWithThree(r0)
    ensures var r3 := JoinLeaveJoin(r0);
            var r4 := r3.(bridge := RelayEnds(r3.bridge, 1));
            && Register(r4, "c").members == {"b", "c"} && Register(r4, "c").bridge.live == {2}
            && Unregister(r4, "b").members == {} && Unregister(r4, "b").bridge.live == {}
  {
    var r3 := JoinLeaveJoin(r0);
    var r4 := r3.(bridge := RelayEnds(r3.bridge, 1));
    assert r4.bridge == Bridge(true, 2, {2}, {});
    assert {"b"} - {"b"} == {};
  }
}

=== FILE: plain_hub.dfy ===
/** The simpler hub of room.go: membership and best-effort delivery only,
    with no readiness counter and no publish/subscribe relay. */
module PlainHub {
  import opened Wire
  import opened Channels
  import opened Session
  import opened Enumeration

  /** `Room` of room.go; `sessions` and `members` as in the rooms.go hub. */
  datatype Room = Room(code: string, sessions: Sessions, members: set<ClientId>)

  /** `NewRoom` */
  function NewRoom(code: string): (r: Room)
    ensures r.code == code && r.members == {} && Valid(r)
  {
    Room(code, map[], {})
  }

  ghost predicate Valid(r: Room) {
    && WellKeyed(r.sessions)
    && r.members <= r.sessions.Keys
    && SendsOpen(r.sessions, r.members)
    && (forall k :: k in r.sessions ==> r.sessions[k].send.Bounded())
  }

  /** The register case of room.go as written: the client joins and every
      member whose queue has room is sent "joined: " followed by that
      member's OWN name (`cl.name`), not the newcomer's. */
  function RegisterAsWritten(r: Room, id: ClientId): (r': Room)
    requires id in r.sessions
    requires SendsOpen(r.sessions, r.members + {id})
    ensures r'.code == r.code && r'.members == r.members + {id}
    ensures r'.sessions.Keys == r.sessions.Keys
    ensures forall k :: k in r.sessions && k !in r'.members ==> r'.sessions[k] == r.sessions[k]
    ensures forall k :: k in r'.members && r.sessions[k].send.Full() ==> r'.sessions[k] == r.sessions[k]
    ensures forall k :: k in r'.members && !r.sessions[k].send.Full() ==>
              r'.sessions[k].send.items == r.sessions[k].send.items + [Raw(JoinedNotice(r.sessions[k].name))]
    ensures forall k :: k in r.sessions ==> r'.sessions[k].(send := r.sessions[k].send) == r.sessions[k]
    ensures forall k :: k in r.sessions ==>
              r'.sessions[k].send.closed == r.sessions[k].send.closed
              && r'.sessions[k].send.capacity == r.sessions[k].send.capacity
  {
    var ms := r.members + {id};
    r.(members := ms, sessions := Deliver(r.sessions, ms, (c: Client) => Raw(JoinedNotice(c.name))))
  }

  /** An existing member with room in its queue is told its own name, so
      whenever the two names differ it never learns the newcomer's. */
  lemma JoinedNoticeNamesRecipient(r: Room, id: ClientId, k: ClientId)
    requires id in r.sessions && SendsOpen(r.sessions, r.members + {id})
    requires k in r.members && !r.sessions[k].send.Full()
    requires r.sessions[k].name != r.sessions[id].name
    ensures var q := RegisterAsWritten(r, id).sessions[k].send.items;
            q != [] && q[|q| - 1] != Raw(JoinedNotice(r.sessions[id].name))
  {
    var n, m := r.sessions[k].name, r.sessions[id].name;
    assert JoinedNotice(n)[8..] == n;
    assert JoinedNotice(m)[8..] == m;
  }

  /** The concrete case: "Ann" is in the room when "Bob" joins; as written,
      Ann's queue receives "joined: Ann". */
  lemma AnnSeesOwnName()
    ensures var ann := Client("a", "Ann", true, false, Crew, MakeChan(SendBuffer));
            var bob := Client("b", "Bob", true, false, Crew, MakeChan(SendBuffer));
            var r := Room("ROOM", map["a" := ann, "b" := bob], {"a"});
            RegisterAsWritten(r, "b").sessions["a"].send.items == [Raw("joined: Ann")]
  {
    var ann := Client("a", "Ann", true, false, Crew, MakeChan(SendBuffer));
    var bob := Client("b", "Bob", true, false, Crew, MakeChan(SendBuffer));
    var r := Room("ROOM", map["a" := ann, "b" := bob], {"a"});
    assert "a" in r.members + {"b"};
    assert !r.sessions["a"].send.Full();
    var r' := RegisterAsWritten(r, "b");
    assert r'.sessions["a"].send.items == [] + [Raw(JoinedNotice("Ann"))];
    assert JoinedNotice("Ann") == "joined: Ann";
  }

  /** The register case as intended (and as rooms.go does it): every member
      whose queue has room, the newcomer included, is told the NEWCOMER's
      name; nothing but the queues changes. */
  function Register(r: Room, id: ClientId): (r': Room)
    requires id in r.sessions
    requires SendsOpen(r.sessions, r.members + {id})
    ensures r'.code == r.code && r'.members == r.members + {id}
    ensures r'.sessions.Keys == r.sessions.Keys
    ensures forall k :: k in r.sessions && k !in r'.members ==> r'.sessions[k] == r.sessions[k]
    ensures forall k :: k in r'.members && r.sessions[k].send.Full() ==> r'.sessions[k] == r.sessions[k]
    ensures forall k :: k in r'.members && !r.sessions[k].send.Full() ==>
              r'.sessions[k].send.items == r.sessions[k].send.items + [Raw(JoinedNotice(r.sessions[id].name))]
    ensures forall k :: k in r.sessions ==> r'.sessions[k].(send := r.sessions[k].send) == r.sessions[k]
    ensures forall k :: k in r.sessions ==>
              r'.sessions[k].send.closed == r.sessions[k].send.closed
              && r'.sessions[k].send.capacity == r.sessions[k].send.capacity
  {
    var ms := r.members + {id};
    var notice := Raw(JoinedNotice(r.sessions[id].name));
    r.(members := ms, sessions := Deliver(r.sessions, ms, _ => notice))
  }

  /** The same room as in `AnnSeesOwnName`: corrected, Ann is told that Bob
      joined. */
  lemma AnnSeesNewcomer()
    ensures var ann := Client("a", "Ann", true, false, Crew, MakeChan(SendBuffer));
            var bob := Client("b", "Bob", true, false, Crew, MakeChan(SendBuffer));
            var r := Room("ROOM", map["a" := ann, "b" := bob], {"a"});
            Register(r, "b").sessions["a"].send.items == [Raw("joined: Bob")]
  {
    var ann := Client("a", "Ann", true, false, Crew, MakeChan(SendBuffer));
    var bob := Client("b", "Bob", true, false, Crew, MakeChan(SendBuffer));
    var r := Room("ROOM", map["a" := ann, "b" := bob], {"a"});
    assert "a" in r.members + {"b"};
    assert !r.sessions["a"].send.Full();
    var r' := Register(r, "b");
    assert r'.sessions["a"].send.items == [] + [Raw(JoinedNotice("Bob"))];
    assert JoinedNotice("Bob") == "joined: Bob";
  }

  /** The unregister case of room.go: a member is removed and its queue
      closed; anyone else is ignored. */
  function Unregister(r: Room, id: ClientId): (r': Room)
    requires id in r.sessions
    requires id in r.members ==> !r.sessions[id].send.closed
    ensures r'.code == r.code && r'.members == r.members - {id}
    ensures id !in r.members ==> r' == r
    ensures id in r.members ==>
              r'.sessions == r.sessions[id := r.sessions[id].(send := Close(r.sessions[id].send))]
  {
    if id in r.members then
      var c := r.sessions[id];
      r.(members := r.members - {id}, sessions := r.sessions[id := c.(send := Close(c.send))])
    else r
  }

  /** The broadcast case: best-effort delivery to every member. */
  function Broadcast(r: Room, p: Payload): (r': Room)
    requires SendsOpen(r.sessions, r.members)
    ensures r'.code == r.code && r'.members == r.members
    ensures r'.sessions.Keys == r.sessions.Keys
    ensures forall k :: k in r.sessions && k !in r.members ==> r'.sessions[k] == r.sessions[k]
    ensures forall k :: k in r.members && r.sessions[k].send.Full() ==> r'.sessions[k] == r.sessions[k]
    ensures forall k :: k in r.members && !r.sessions[k].send.Full() ==>
              r'.sessions[k].send.items == r.sessions[k].send.items + [p]
    ensures forall k :: k in r.sessions ==> r'.sessions[k].(send := r.sessions[k].send) == r.sessions[k]
    ensures forall k :: k in r.sessions ==>
              r'.sessions[k].send.closed == r.sessions[k].send.closed
              && r'.sessions[k].send.capacity == r.sessions[k].send.capacity
  {
    r.(sessions := Deliver(r.sessions, r.members, _ => p))
  }

  lemma RegisterKeepsValid(r: Room, id: ClientId)
    requires Valid(r) && id in r.sessions && !r.sessions[id].send.closed
    ensures Valid(Register(r, id))
  {
  }

  lemma RegisterAsWrittenKeepsValid(r: Room, id: ClientId)
    requires Valid(r) && id in r.sessions && !r.sessions[id].send.closed
    ensures Valid(RegisterAsWritten(r, id))
  {
  }

  lemma UnregisterKeepsValid(r: Room, id: ClientId)
    requires Valid(r) && id in r.sessions
    ensures Valid(Unregister(r, id))
  {
  }

  lemma BroadcastKeepsValid(r: Room, p: Payload)
    requires Valid(r)
    ensures Valid(Broadcast(r, p))
  {
  }

  /** `broadcastState`: the snapshot in a "state" envelope. */
  function BroadcastState(r: Room, order: seq<ClientId>): (p: Payload)
    requires Valid(r) && Enumerates(order, r.members)
    ensures ListsRoom(p, r.code, r.sessions, r.members)
  {
    StateMessageListsRoom(r.code, r.sessions, r.members, order);
    StateMessage(Snapshot(r.code, r.sessions, r.members, order))
  }

  /** The result of one case of the room loop: done, or blocked forever. */
  datatype CaseResult = Done(room: Room) | Blocked

  /** The unbuffered `broadcast` channel of room.go's `NewRoom`. */
  const BroadcastCapacity: nat := 0

  /** The register case as written: after the notices, `broadcastState`
      sends the snapshot on the room's own unbuffered `broadcast` channel
      from inside the loop that is its only reader. No reader is waiting,
      so the send cannot complete. */
  function HandleRegisterAsWritten(r: Room, id: ClientId, order: seq<ClientId>): (res: CaseResult)
    requires Valid(r) && id in r.sessions && !r.sessions[id].send.closed
    requires Enumerates(order, r.members + {id})
    ensures res.Done? ==> res.room.members == r.members + {id}
  {
    RegisterAsWrittenKeepsValid(r, id);
    var r1 := RegisterAsWritten(r, id);
    match SendAll(MakeChan(BroadcastCapacity), [BroadcastState(r1, order)])
    case None => Blocked
    case Some(_) => Done(r1)
  }

  /** Every registration blocks the room loop for good: no later request
      of any kind is ever served. */
  lemma RegisterAlwaysBlocks(r: Room, id: ClientId, order: seq<ClientId>)
    requires Valid(r) && id in r.sessions && !r.sessions[id].send.closed
    requires Enumerates(order, r.members + {id})
    ensures HandleRegisterAsWritten(r, id, order) == Blocked
  {
  }

  /** A member with room for two more messages gets the joined notice (as
      written, naming the member itself) and then the broadcast payload, in
      that order. */
  lemma NoticeThenPayload(r: Room, id: ClientId, p: Payload)
    requires Valid(r) && id in r.sessions && !r.sessions[id].send.closed
    ensures forall k :: k in r.members + {id} && |r.sessions[k].send.items| + 2 <= r.sessions[k].send.capacity ==>
              Broadcast(RegisterAsWritten(r, id), p).sessions[k].send.items
              == r.sessions[k].send.items + [Raw(JoinedNotice(r.sessions[k].name)), p]
  {
    var r1 := RegisterAsWritten(r, id);
    forall k | k in r.members + {id} && |r.sessions[k].send.items| + 2 <= r.sessions[k].send.capacity
      ensures Broadcast(r1, p).sessions[k].send.items == r.sessions[k].send.items + [Raw(JoinedNotice(r.sessions[k].name)), p]
    {
      var q := r.sessions[k].send.items;
      var notice := Raw(JoinedNotice(r.sessions[k].name));
      assert r1.sessions[k].send.items == q + [notice];
      assert r1.sessions[k].send.capacity == r.sessions[k].send.capacity;
      assert Broadcast(r1, p).sessions[k].send.items == q + [notice] + [p];
    }
  }

  /** The register case with only its blocking send corrected: the joined
      notices go out exactly as written, and then the fresh snapshot is
      delivered to every member with room instead of being sent on the
      loop's own channel. */
  function HandleRegister(r: Room, id: ClientId, order: seq<ClientId>): (r': Room)
    requires Valid(r) && id in r.sessions && !r.sessions[id].send.closed
    requires Enumerates(order, r.members + {id})
    ensures Valid(r') && r'.members == r.members + {id}
    ensures Valid(RegisterAsWritten(r, id))
    ensures forall k :: k in r'.members && |r.sessions[k].send.items| + 2 <= r.sessions[k].send.capacity ==>
              r'.sessions[k].send.items
              == r.sessions[k].send.items
                 + [Raw(JoinedNotice(r.sessions[k].name)), BroadcastState(RegisterAsWritten(r, id), order)]
  {
    RegisterAsWrittenKeepsValid(r, id);
    var r1 := RegisterAsWritten(r, id);
    var p := BroadcastState(r1, order);
    BroadcastKeepsValid(r1, p);
    NoticeThenPayload(r, id, p);
    Broadcast(r1, p)
  }
}

=== FILE: pumps.dfy ===
/** The two loops of a client session in client.go. The read pump handles
    one received frame at a time: it records the frame in the room's
    history list; once the room's gate is open it intercepts the first
    "agree" signal of a client and drops malformed frames; it forwards the
    rest to the hub. The
    write pump drains the send queue and probes the peer on a timer. The
    socket, the deadlines and the history store's replies are inputs. */
module Pumps {
  import opened Wire
  import opened Channels
  import opened Session
  import opened Hub

  // ---------------------------------------------------------------------
  // Keepalive timing (`time.Duration` is a signed 64-bit count of ns)

  const Second: int := 1_000_000_000
  const PongWait: int := 60 * Second
  const MinInt64: int := -0x8000_0000_0000_0000
  const MaxInt64: int := 0x7FFF_FFFF_FFFF_FFFF

  /** Two's-complement wrap-around of a 64-bit multiplication. */
  function Wrap64(x: int): (r: int)
    ensures MinInt64 <= r <= MaxInt64
    ensures (x - r) % 0x1_0000_0000_0000_0000 == 0
    ensures MinInt64 <= x <= MaxInt64 ==> r == x
  {
    (x - MinInt64) % 0x1_0000_0000_0000_0000 + MinInt64
  }

  /** Go's integer division, which truncates toward zero. */
  function GoQuot(a: int, b: int): int
    requires b != 0
  {
    if (a >= 0) == (b > 0) then (if a >= 0 then a / b else (-a) / (-b))
    else -((if a >= 0 then a else -a) / (if b > 0 then b else -b))
  }

  /** `pingPeriod = (pongWait * 9) / 10` on `time.Duration`: for every
      positive wait a probe is due strictly before the read deadline,
      overflow or not. */
  function PingPeriod(pongWait: int): (p: int)
    requires MinInt64 <= pongWait <= MaxInt64
    ensures 0 < pongWait ==> p < pongWait
  {
    TenthOfInt64(Wrap64(pongWait * 9));
    GoQuot(Wrap64(pongWait * 9), 10)
  }

  /** A tenth of any 64-bit count is at most a tenth of the largest one. */
  lemma TenthOfInt64(w: int)
    requires MinInt64 <= w <= MaxInt64
    ensures GoQuot(w, 10) <= MaxInt64 / 10
  {
    assert -MaxInt64 - 1 <= w;
  }

  /** When the product does not overflow, the period is the floor of nine
      tenths of the wait and not negative. */
  lemma PingPeriodIsNineTenths(pongWait: int)
    requires 0 < pongWait <= MaxInt64
    ensures pongWait * 9 <= MaxInt64 ==>
              && 0 <= PingPeriod(pongWait)
              && 10 * PingPeriod(pongWait) <= 9 * pongWait < 10 * PingPeriod(pongWait) + 10
  {
  }

  /** Past that bound the product wraps to a negative count: the smallest
      overflowing wait yields a negative period, for which `time.NewTicker`
      panics. */
  lemma OverflowedPeriodIsNegative()
    ensures (MaxInt64 / 9 + 1) * 9 > MaxInt64
    ensures PingPeriod(MaxInt64 / 9 + 1) < 0
  {
  }

  /** With the configured 60 s wait the probe runs every 54 s. */
  lemma ConfiguredPingPeriod()
    ensures PingPeriod(PongWait) == 54 * Second
  {
    PingPeriodIsNineTenths(PongWait);
  }

  // ---------------------------------------------------------------------
  // Message history (`RPush` then `LTrim key -50 -1`)

  const HistoryLimit: nat := 50

  datatype StoreReply = StoreOk | StoreFailed

  /** `LTrim key -n -1`: the last `n` entries (all of them if fewer). */
  function KeepLast<T>(h: seq<T>, n: nat): (r: seq<T>)
    ensures |r| == if |h| <= n then |h| else n
    ensures forall i :: 0 <= i < |r| ==> r[i] == h[|h| - |r| + i]
  {
    if |h| <= n then h else h[|h| - n..]
  }

  /** The history list after one received frame: the push and the trim are
      separate requests, each of which may fail on its own (a failure is
      only logged). */
  function RecordFrame<T>(h: seq<T>, msg: T, push: StoreReply, trim: StoreReply): (r: seq<T>)
    ensures push == StoreOk && trim == StoreOk ==> r == KeepLast(h + [msg], HistoryLimit)
    ensures push == StoreOk && trim == StoreOk ==>
              |r| == (if |h| < HistoryLimit then |h| + 1 else HistoryLimit) && r[|r| - 1] == msg
    ensures push == StoreOk && trim == StoreFailed ==> r == h + [msg]
    ensures push == StoreFailed && trim == StoreOk ==> r == KeepLast(h, HistoryLimit)
    ensures push == StoreFailed && trim == StoreFailed ==> r == h
    ensures trim == StoreOk ==> |r| <= HistoryLimit
  {
    var pushed := if push == StoreOk then h + [msg] else h;
    if trim == StoreOk then KeepLast(pushed, HistoryLimit) else pushed
  }

  /** The history after a run of frames, all stored successfully. */
  function RecordAll<T>(h: seq<T>, msgs: seq<T>): seq<T>
    decreases |msgs|
  {
    if msgs == [] then h
    else RecordAll(RecordFrame(h, msgs[0], StoreOk, StoreOk), msgs[1..])
  }

  /** Trimming before appending and trimming again is appending and
      trimming once. */
  lemma KeepLastAppend<T>(x: seq<T>, m: T, n: nat)
    ensures KeepLast(KeepLast(x, n) + [m], n) == KeepLast(x + [m], n)
  {
  }

  /** Storing one frame into a trimmed history trims the extended one. */
  lemma RecordIntoWindow<T>(h: seq<T>, m: T)
    ensures RecordFrame(KeepLast(h, HistoryLimit), m, StoreOk, StoreOk) == KeepLast(h + [m], HistoryLimit)
  {
    KeepLastAppend(h, m, HistoryLimit);
  }

  /** However many frames arrive, the stored history is the last 50 of
      everything received (including what was stored before). */
  lemma {:induction false} HistoryIsWindow<T>(h: seq<T>, msgs: seq<T>)
    ensures RecordAll(KeepLast(h, HistoryLimit), msgs) == KeepLast(h + msgs, HistoryLimit)
    ensures |RecordAll(KeepLast(h, HistoryLimit), msgs)| <= HistoryLimit
    decreases |msgs|
  {
    if msgs != [] {
      RecordIntoWindow(h, msgs[0]);
      HistoryIsWindow(h + [msgs[0]], msgs[1..]);
      assert h + [msgs[0]] + msgs[1..] == h + msgs;
    }
  }

  // ---------------------------------------------------------------------
  // Read pump

  /** The room gate in front of the readiness handling (`active >= 3`). */
  const AgreeGate: int := 3

  /** Outcome of decoding a frame as a JSON object: malformed, or an object
      whose "type" member is a string (`Some`) or missing/not a string. */
  datatype Decoded = Malformed | Object(typeField: Option<string>)

  datatype ReadResult = ReadFailed | Frame(text: string, decoded: Decoded)

  /** The room after the frame, the history list, the requests sent to the
      hub, and whether the pump has ended. */
  datatype ReadOutcome = ReadOutcome(room: Room, history: seq<string>, sent: seq<Event>, exit: bool)

  /** `{"type":"agree","data":{"username":name}}` */
  function AgreeNotice(name: string): Payload {
    Json(Envelope(AgreeType, AgreeData(name)))
  }

  /** Is this frame a client's first readiness signal, to be intercepted? */
  predicate IsFirstAgree(r: Room, id: ClientId, active: int, input: ReadResult)
    requires id in r.sessions
  {
    && active >= AgreeGate
    && input.Frame? && input.decoded == Object(Some(AgreeType))
    && !r.sessions[id].ready
  }

  /** One iteration of `readPump`. `active` stands for the room's gate
      value. */
  function ReadStep(r: Room, h: seq<string>, id: ClientId, active: int, input: ReadResult,
                    push: StoreReply, trim: StoreReply): (o: ReadOutcome)
    requires id in r.sessions
    ensures input.ReadFailed? ==> o == ReadOutcome(r, h, [Leave(id)], true)
    ensures input.Frame? ==> !o.exit && o.history == RecordFrame(h, input.text, push, trim)
    ensures IsFirstAgree(r, id, active, input) ==>
              o.room == MarkReady(r, id) && o.sent == [Send(AgreeNotice(r.sessions[id].name))]
    ensures input.Frame? && active >= AgreeGate && input.decoded.Malformed? ==>
              o.room == r && o.sent == []
    ensures input.Frame? && !IsFirstAgree(r, id, active, input)
            && !(active >= AgreeGate && input.decoded.Malformed?) ==>
              o.room == r && o.sent == [Send(Raw(input.text))]
  {
    match input
    case ReadFailed => ReadOutcome(r, h, [Leave(id)], true)
    case Frame(text, decoded) =>
      var h' := RecordFrame(h, text, push, trim);
      if active >= AgreeGate then
        match decoded
        case Malformed => ReadOutcome(r, h', [], false)
        case Object(t) =>
          if t == Some(AgreeType) && !r.sessions[id].ready then
            ReadOutcome(MarkReady(r, id), h', [Send(AgreeNotice(r.sessions[id].name))], false)
          else
            ReadOutcome(r, h', [Send(Raw(text))], false)
      else
        ReadOutcome(r, h', [Send(Raw(text))], false)
  }

  /** History failures never change what the pump does to the room or
      forwards to the hub. */
  lemma ForwardingIgnoresStore(r: Room, h: seq<string>, id: ClientId, active: int, input: ReadResult,
                               p1: StoreReply, t1: StoreReply, p2: StoreReply, t2: StoreReply)
    requires id in r.sessions
    ensures ReadStep(r, h, id, active, input, p1, t1).room == ReadStep(r, h, id, active, input, p2, t2).room
    ensures ReadStep(r, h, id, active, input, p1, t1).sent == ReadStep(r, h, id, active, input, p2, t2).sent
    ensures ReadStep(r, h, id, active, input, p1, t1).exit == ReadStep(r, h, id, active, input, p2, t2).exit
  {
  }

  /** A member's frame keeps the room sound (and valid, when it was), and
      whatever it sends the hub is a request the hub accepts. */
  lemma ReadStepKeepsValid(r: Room, h: seq<string>, id: ClientId, active: int, input: ReadResult,
                           push: StoreReply, trim: StoreReply)
    requires Sound(r) && id in r.members
    ensures var o := ReadStep(r, h, id, active, input, push, trim);
            && Sound(o.room) && (Valid(r) ==> Valid(o.room)) && o.room.members == r.members
            && forall i :: 0 <= i < |o.sent| ==> Admissible(o.room, o.sent[i])
  {
    var o := ReadStep(r, h, id, active, input, push, trim);
    if IsFirstAgree(r, id, active, input) {
      MarkReadyKeepsValid(r, id);
      assert o.sent == [Send(AgreeNotice(r.sessions[id].name))];
    } else if input.ReadFailed? {
      assert o.room == r && o.sent == [Leave(id)];
    } else {
      assert o.room == r && forall i :: 0 <= i < |o.sent| ==> o.sent[i].Send?;
    }
  }

  /** Sending "agree" twice raises the counter by exactly one: the first is
      intercepted, the second is forwarded verbatim. */
  lemma AgreeTwiceCountsOnce(r: Room, h: seq<string>, id: ClientId, active: int, text: string)
    requires id in r.sessions && !r.sessions[id].ready && active >= AgreeGate
    ensures var f := Frame(text, Object(Some(AgreeType)));
            var o1 := ReadStep(r, h, id, active, f, StoreOk, StoreOk);
            var o2 := ReadStep(o1.room, o1.history, id, active, f, StoreOk, StoreOk);
            && o1.room.ready == r.ready + 1
            && o2.room.ready == r.ready + 1
            && o1.sent == [Send(AgreeNotice(r.sessions[id].name))]
            && o2.sent == [Send(Raw(text))]
  {
    var f := Frame(text, Object(Some(AgreeType)));
    var o1 := ReadStep(r, h, id, active, f, StoreOk, StoreOk);
    assert o1.room.sessions[id].ready;
    assert !IsFirstAgree(o1.room, id, active, f);
  }

  /** The readiness check after an intercepted "agree": when the sender
      was the last member not yet ready, `allReady` holds afterwards (and
      the count-down would start); while someone else is still not ready
      it does not. */
  lemma LastAgreeCompletesRoom(r: Room, h: seq<string>, id: ClientId, active: int, f: ReadResult,
                               push: StoreReply, trim: StoreReply)
    requires Sound(r) && id in r.members && IsFirstAgree(r, id, active, f)
    ensures var o := ReadStep(r, h, id, active, f, push, trim);
            AllReady(o.room) <==> forall m :: m in r.members && m != id ==> r.sessions[m].ready
  {
    var o := ReadStep(r, h, id, active, f, push, trim);
    MarkReadyKeepsValid(r, id);
    assert forall m :: m in r.members && m != id ==> o.room.sessions[m].ready == r.sessions[m].ready;
  }

  /** The frames that `readPump` has taken from the socket, as text. */
  function FrameTexts(inputs: seq<ReadResult>): (ts: seq<string>)
    requires forall i :: 0 <= i < |inputs| ==> inputs[i].Frame?
    ensures |ts| == |inputs|
  {
    seq(|inputs|, i requires 0 <= i < |inputs| => inputs[i].text)
  }

  /** Taking one more frame extends the received texts by its text. */
  lemma FrameTextsSnoc(inputs: seq<ReadResult>, k: nat)
    requires k < |inputs| && forall i :: 0 <= i <= k ==> inputs[i].Frame?
    ensures FrameTexts(inputs[..k + 1]) == FrameTexts(inputs[..k]) + [inputs[k].text]
  {
  }

  /** Is `f` an "agree" frame that the pump looks at (room gate open)? */
  predicate AgreeFrame(active: int, f: ReadResult) {
    active >= AgreeGate && f.Frame? && f.decoded == Object(Some(AgreeType))
  }

  /** Did any frame of `fs` carry an agree signal the pump looks at? */
  predicate SawAgree(active: int, fs: seq<ReadResult>) {
    exists j :: 0 <= j < |fs| && AgreeFrame(active, fs[j])
  }

  /** One more frame is an agree signal seen exactly when it is one or an
      earlier frame was. */
  lemma SawAgreeSnoc(active: int, inputs: seq<ReadResult>, k: nat)
    requires k < |inputs|
    ensures SawAgree(active, inputs[..k + 1]) <==> SawAgree(active, inputs[..k]) || AgreeFrame(active, inputs[k])
  {
    var pre, fs := inputs[..k], inputs[..k + 1];
    if SawAgree(active, fs) && !AgreeFrame(active, inputs[k]) {
      var j :| 0 <= j < |fs| && AgreeFrame(active, fs[j]);
      assert j < k && pre[j] == fs[j];
    }
    if SawAgree(active, pre) {
      var j :| 0 <= j < |pre| && AgreeFrame(active, pre[j]);
      assert fs[j] == pre[j];
    }
    if AgreeFrame(active, inputs[k]) {
      assert fs[k] == inputs[k];
    }
  }

  /** The room after the frames `fs`: marked ready by the first agree
      signal among them, unless the client was ready already. */
  function RoomAfterFrames(r: Room, id: ClientId, active: int, fs: seq<ReadResult>): Room
    requires id in r.sessions
  {
    if !r.sessions[id].ready && SawAgree(active, fs) then MarkReady(r, id) else r
  }

  /** What the pump hands the hub for frame `i` of `fs`: nothing for a
      malformed frame behind the open gate, the agree notice for the
      client's first agree signal when it was not ready, and the frame's
      own text for everything else. */
  function FrameOut(r: Room, id: ClientId, active: int, fs: seq<ReadResult>, i: nat): seq<Event>
    requires id in r.sessions && i < |fs| && fs[i].Frame?
  {
    if active >= AgreeGate && fs[i].decoded.Malformed? then []
    else if AgreeFrame(active, fs[i]) && !r.sessions[id].ready && !SawAgree(active, fs[..i]) then
      [Send(AgreeNotice(r.sessions[id].name))]
    else [Send(Raw(fs[i].text))]
  }

  /** Everything the pump hands the hub for the frames `fs`, in order. */
  function Forwarded(r: Room, id: ClientId, active: int, fs: seq<ReadResult>): (out: seq<Event>)
    requires id in r.sessions && forall i :: 0 <= i < |fs| ==> fs[i].Frame?
    ensures |out| <= |fs|
    ensures forall i :: 0 <= i < |out| ==> out[i].Send?
    decreases |fs|
  {
    if fs == [] then []
    else Forwarded(r, id, active, fs[..|fs| - 1]) + FrameOut(r, id, active, fs, |fs| - 1)
  }

  /** While the room's gate is closed the pump forwards every frame's text
      verbatim, one request per frame, in order. */
  lemma {:induction false} ClosedGateForwardsVerbatim(r: Room, id: ClientId, active: int, fs: seq<ReadResult>)
    requires id in r.sessions && forall i :: 0 <= i < |fs| ==> fs[i].Frame?
    requires active < AgreeGate
    ensures |Forwarded(r, id, active, fs)| == |fs|
    ensures forall i :: 0 <= i < |fs| ==> Forwarded(r, id, active, fs)[i] == Send(Raw(fs[i].text))
    decreases |fs|
  {
    if fs != [] {
      var pre := fs[..|fs| - 1];
      ClosedGateForwardsVerbatim(r, id, active, pre);
      assert !AgreeFrame(active, fs[|fs| - 1]);
      assert FrameOut(r, id, active, fs, |fs| - 1) == [Send(Raw(fs[|fs| - 1].text))];
    }
  }

  /** The first agree signal among the first `k + 1` frames is frame `k`
      exactly when `ReadStep` intercepts it in the room the earlier frames
      left behind; that room still has the client, under the same name. */
  lemma FirstAgreeAt(r: Room, id: ClientId, active: int, inputs: seq<ReadResult>, k: nat)
    requires id in r.sessions && k < |inputs|
    ensures var room := RoomAfterFrames(r, id, active, inputs[..k]);
            && id in room.sessions && room.sessions[id].name == r.sessions[id].name
            && (IsFirstAgree(room, id, active, inputs[k])
                <==> AgreeFrame(active, inputs[k]) && !r.sessions[id].ready && !SawAgree(active, inputs[..k]))
            && (RoomAfterFrames(r, id, active, inputs[..k + 1])
                == if IsFirstAgree(room, id, active, inputs[k]) then MarkReady(room, id) else room)
  {
    SawAgreeSnoc(active, inputs, k);
    var room := RoomAfterFrames(r, id, active, inputs[..k]);
    assert room.sessions[id].ready <==> r.sessions[id].ready || SawAgree(active, inputs[..k]);
  }

  /** Frame `k`, handled by `ReadStep` in the room the earlier frames left
      behind, leaves the room that `k + 1` frames leave behind and extends
      what was forwarded by `FrameOut`. */
  lemma FrameStep(r: Room, h: seq<string>, id: ClientId, active: int, inputs: seq<ReadResult>, k: nat)
    requires id in r.sessions && k < |inputs| && forall i :: 0 <= i <= k ==> inputs[i].Frame?
    ensures var o := ReadStep(RoomAfterFrames(r, id, active, inputs[..k]), h, id, active, inputs[k], StoreOk, StoreOk);
            && o.room == RoomAfterFrames(r, id, active, inputs[..k + 1])
            && Forwarded(r, id, active, inputs[..k + 1]) == Forwarded(r, id, active, inputs[..k]) + o.sent
  {
    var fs := inputs[..k + 1];
    assert fs[..k] == inputs[..k] && fs[k] == inputs[k] && |fs| - 1 == k;
    FirstAgreeAt(r, id, active, inputs, k);
  }

  /** A failed socket read handled by `ReadStep`. */
  method PumpFailure(r: Room, h: seq<string>, id: ClientId, active: int, f: ReadResult)
    returns (sent: seq<Event>, exit: bool)
    requires id in r.sessions && f.ReadFailed?
    ensures sent == [Leave(id)] && exit
  {
    var o := ReadStep(r, h, id, active, f, StoreOk, StoreOk);
    sent, exit := o.sent, o.exit;
  }

  /** The history `readPump` holds after the first `k` frames of `inputs`,
      starting from `h`, with every history request succeeding. */
  ghost predicate HistoryAfter(h: seq<string>, inputs: seq<ReadResult>, k: nat, hist: seq<string>)
    requires k <= |inputs| && forall i :: 0 <= i < k ==> inputs[i].Frame?
  {
    if k == 0 then hist == h else hist == KeepLast(h + FrameTexts(inputs[..k]), HistoryLimit)
  }

  /** The history after frame `k` of `inputs`, given the history before. */
  lemma HistoryStep(h: seq<string>, inputs: seq<ReadResult>, k: nat, hist: seq<string>)
    requires k < |inputs| && forall i :: 0 <= i <= k ==> inputs[i].Frame?
    requires HistoryAfter(h, inputs, k, hist)
    ensures HistoryAfter(h, inputs, k + 1, RecordFrame(hist, inputs[k].text, StoreOk, StoreOk))
  {
    FrameTextsSnoc(inputs, k);
    if k > 0 {
      KeepLastAppend(h + FrameTexts(inputs[..k]), inputs[k].text, HistoryLimit);
    }
    assert h + FrameTexts(inputs[..k]) + [inputs[k].text] == h + FrameTexts(inputs[..k + 1]);
  }

  /** Frame `k` of `inputs` handled by `ReadStep` inside the read loop:
      the loop's account of the room, the history and the requests sent so
      far carries over to `k + 1`. */
  method ReadOne(r0: Room, h: seq<string>, id: ClientId, active: int, inputs: seq<ReadResult>, k: nat,
                 r: Room, hist: seq<string>, sent: seq<Event>)
    returns (room: Room, hist': seq<string>, sent': seq<Event>)
    requires id in r0.sessions && k < |inputs| && forall i :: 0 <= i <= k ==> inputs[i].Frame?
    requires r == RoomAfterFrames(r0, id, active, inputs[..k])
    requires sent == Forwarded(r0, id, active, inputs[..k])
    requires HistoryAfter(h, inputs, k, hist)
    ensures room == RoomAfterFrames(r0, id, active, inputs[..k + 1])
    ensures sent' == Forwarded(r0, id, active, inputs[..k + 1])
    ensures HistoryAfter(h, inputs, k + 1, hist')
  {
    HistoryStep(h, inputs, k, hist);
    FrameStep(r0, hist, id, active, inputs, k);
    var o := ReadStep(r, hist, id, active, inputs[k], StoreOk, StoreOk);
    room, hist', sent' := o.room, o.history, sent + o.sent;
  }

  /** The frame-handling part of `readPump`: consumes frames until the
      first failed read (or the end of `inputs`), with every history
      request succeeding. */
  method ReadFrames(r: Room, h: seq<string>, id: ClientId, active: int, inputs: seq<ReadResult>)
    returns (room: Room, hist: seq<string>, sent: seq<Event>, frames: nat)
    requires id in r.sessions
    ensures frames <= |inputs| && forall i :: 0 <= i < frames ==> inputs[i].Frame?
    ensures frames < |inputs| ==> inputs[frames].ReadFailed?
    ensures room == RoomAfterFrames(r, id, active, inputs[..frames])
    ensures sent == Forwarded(r, id, active, inputs[..frames])
    ensures HistoryAfter(h, inputs, frames, hist)
  {
    room, hist, sent, frames := r, h, [], 0;
    assert inputs[..0] == [];
    while frames < |inputs| && inputs[frames].Frame?
      invariant frames <= |inputs| && forall i :: 0 <= i < frames ==> inputs[i].Frame?
      invariant room == RoomAfterFrames(r, id, active, inputs[..frames])
      invariant sent == Forwarded(r, id, active, inputs[..frames])
      invariant HistoryAfter(h, inputs, frames, hist)
    {
      room, hist, sent := ReadOne(r, h, id, active, inputs, frames, room, hist, sent);
      frames := frames + 1;
    }
  }

  /** `readPump` over a sequence of socket reads, with every history request
      succeeding. It stops at the first read error, and only then; that
      error is answered by exactly one unregister request, sent last,
      after the requests `Forwarded` names for the frames before it; the
      room is marked ready at most once; the history ends up as the last
      50 texts stored, old and new. */
  method ReadLoop(r: Room, h: seq<string>, id: ClientId, active: int, inputs: seq<ReadResult>)
    returns (o: ReadOutcome, frames: nat)
    requires id in r.sessions
    ensures frames <= |inputs| && forall i :: 0 <= i < frames ==> inputs[i].Frame?
    ensures o.exit <==> frames < |inputs|
    ensures o.exit ==> inputs[frames].ReadFailed?
    ensures o.sent == Forwarded(r, id, active, inputs[..frames]) + (if o.exit then [Leave(id)] else [])
    ensures o.room == RoomAfterFrames(r, id, active, inputs[..frames])
    ensures o.room.members == r.members && (o.room.ready == r.ready || o.room.ready == r.ready + 1)
    ensures frames == 0 ==> o.history == h
    ensures frames > 0 ==> o.history == KeepLast(h + FrameTexts(inputs[..frames]), HistoryLimit)
  {
    var room, hist, sent;
    room, hist, sent, frames := ReadFrames(r, h, id, active, inputs);
    var exit := false;
    if frames < |inputs| {
      var last: seq<Event>;
      last, exit := PumpFailure(room, hist, id, active, inputs[frames]);
      sent := sent + last;
    }
    o := ReadOutcome(room, hist, sent, exit);
  }

  // ---------------------------------------------------------------------
  // Write pump

  datatype Written = TextFrame(payload: Payload) | CloseFrame | PingFrame

  /** Which `select` case fires: the send queue or the ping ticker. */
  datatype WriteEvent = Dequeue | Tick

  datatype WriteOutcome = WriteOutcome(queue: Chan, written: Written, stop: bool)

  /** One iteration of `writePump`. Receiving from an open, empty queue
      blocks, so that case never fires. A closed queue still yields its
      buffered payloads; once it is empty a Close frame is written and the
      pump stops whatever the write returns. Any other failed write stops
      the pump. */
  function WriteStep(q: Chan, ev: WriteEvent, writeOk: bool): (o: WriteOutcome)
    requires ev.Tick? || q.items != [] || q.closed
    ensures ev.Tick? ==> o.queue == q && o.written == PingFrame && (o.stop <==> !writeOk)
    ensures ev.Dequeue? && q.items != [] ==>
              o.written == TextFrame(q.items[0]) && o.queue == q.(items := q.items[1..])
              && (o.stop <==> !writeOk)
    ensures ev.Dequeue? && q.items == [] ==> o.queue == q && o.written == CloseFrame && o.stop
  {
    match ev
    case Tick => WriteOutcome(q, PingFrame, !writeOk)
    case Dequeue =>
      if q.items != [] then
        var (p, rest) := Receive(q);
        WriteOutcome(rest, TextFrame(p), !writeOk)
      else WriteOutcome(q, CloseFrame, true)
  }

  function TextFrames(ps: seq<Payload>): (ws: seq<Written>)
    ensures |ws| == |ps|
  {
    seq(|ps|, i requires 0 <= i < |ps| => TextFrame(ps[i]))
  }

  /** The write pump on a queue that has been closed by the hub, with every
      write succeeding: everything still buffered is written in order,
      then exactly one Close frame, then the pump stops. */
  method DrainClosed(q: Chan) returns (frames: seq<Written>)
    requires q.closed
    ensures frames == TextFrames(q.items) + [CloseFrame]
  {
    var cur := q;
    var stop := false;
    frames := [];
    while !stop
      invariant cur.closed
      invariant !stop ==> frames + TextFrames(cur.items) == TextFrames(q.items)
      invariant stop ==> frames == TextFrames(q.items) + [CloseFrame]
      decreases |cur.items| + (if stop then 0 else 1)
    {
      var o := WriteStep(cur, Dequeue, true);
      if cur.items != [] {
        assert TextFrames(cur.items) == [TextFrame(cur.items[0])] + TextFrames(cur.items[1..]);
      }
      frames, cur, stop := frames + [o.written], o.queue, o.stop;
    }
  }
}

=== FILE: registry.dfy ===
/** The room registry of manager.go: room codes are normalised and mapped
    to hubs created on first use; a WebSocket request is validated, the
    stored history is replayed into the new client's queue and the client
    is registered; the origin check and the room listing complete it. */
module Registry {
  import opened Wire
  import opened Channels
  import opened Session
  import opened Hub
  import opened Enumeration
  import GoStrings

  /** The one browser origin allowed to open a WebSocket. */
  const AllowedOrigin: string := "http://localhost:3000"

  /** `checkOrigin`; a request without an Origin header reads as "". */
  function CheckOrigin(origin: string): (ok: bool)
    ensures ok ==> origin == AllowedOrigin
    ensures origin == AllowedOrigin ==> ok
    ensures origin == [] ==> !ok
  {
    match origin
    case "http://localhost:3000" => true
    case _ => false
  }

  /** `strings.ToUpper(strings.TrimSpace(code))`, which is always in
      normal form. */
  function NormalizeCode(code: string): (k: string)
    ensures IsNormal(k)
  {
    UpperTrimmedIsNormal(GoStrings.TrimSpace(code));
    GoStrings.ToUpper(GoStrings.TrimSpace(code))
  }

  /** A code in normal form: no white space at either end and no ASCII
      lower-case letter. */
  predicate IsNormal(k: string) {
    && (k != [] ==> !GoStrings.IsSpace(k[0]) && !GoStrings.IsSpace(k[|k| - 1]))
    && forall i :: 0 <= i < |k| ==> !('a' <= k[i] <= 'z')
  }

  /** Upper-casing a string without white space at its ends puts it in
      normal form. */
  lemma UpperTrimmedIsNormal(t: string)
    requires t != [] ==> !GoStrings.IsSpace(t[0]) && !GoStrings.IsSpace(t[|t| - 1])
    ensures IsNormal(GoStrings.ToUpper(t))
  {
    var u := GoStrings.ToUpper(t);
    if t != [] {
      GoStrings.UpperKeepsSpace(t[0]);
      GoStrings.UpperKeepsSpace(t[|t| - 1]);
    }
    forall i | 0 <= i < |u|
      ensures !('a' <= u[i] <= 'z')
    {
      GoStrings.UpperNotLower(t[i]);
    }
  }

  /** A code in normal form is left as it is. */
  lemma NormalOfNormal(k: string)
    requires IsNormal(k)
    ensures NormalizeCode(k) == k
  {
    GoStrings.TrimSpaceOfTrimmed(k);
  }

  /** A normalised code is its own normal form. */
  lemma NormalizeIdempotent(code: string)
    ensures NormalizeCode(NormalizeCode(code)) == NormalizeCode(code)
  {
    NormalOfNormal(NormalizeCode(code));
  }

  lemma TrimExample()
    ensures GoStrings.TrimSpace(" ab ") == "ab" && GoStrings.TrimSpace("AB") == "AB"
  {
    var t := "ab";
    assert t[0] == 'a' && t[1] == 'b';
    GoStrings.TrimSpacePadded(t);
    assert [' '] + t + [' '] == " ab ";
    TrimmedExample();
  }

  lemma TrimmedExample()
    ensures GoStrings.TrimSpace("AB") == "AB"
  {
    var t := "AB";
    assert t[0] == 'A' && t[1] == 'B';
    GoStrings.TrimSpaceOfTrimmed(t);
  }

  lemma UpperExample()
    ensures GoStrings.ToUpper("ab") == "AB" && GoStrings.ToUpper("AB") == "AB"
  {
    var u := GoStrings.ToUpper("AB");
    assert u[0] == 'A' && u[1] == 'B';
    var v := GoStrings.ToUpper("ab");
    assert v[0] == 'A' && v[1] == 'B';
  }

  /** Surrounding white space and letter case do not matter. */
  lemma NormalizeExample()
    ensures NormalizeCode(" ab ") == NormalizeCode("AB") == "AB"
  {
    TrimExample();
    UpperExample();
  }

  /** `Manager`: the rooms keyed by normalised code. */
  datatype Manager = Manager(rooms: map<string, Room>)

  /** Every registered room is stored under its own, normalised code and
      is itself sound (`Hub.Sound`, which rooms.go keeps as written). */
  ghost predicate Valid(m: Manager) {
    forall k {:trigger Registered(k, m.rooms[k])} :: k in m.rooms ==> Registered(k, m.rooms[k])
  }

  /** The room stored under key `k` belongs there. */
  ghost predicate Registered(k: string, r: Room) {
    r.code == k && IsNormal(k) && Hub.Sound(r)
  }

  /** `GetOrCreate`: the room for a code, created when missing; returns the
      registry and the normalised key. */
  function GetOrCreate(m: Manager, code: string): (res: (Manager, string))
    ensures res.1 == NormalizeCode(code) && res.1 in res.0.rooms
    ensures res.1 in m.rooms ==> res.0 == m
    ensures res.1 !in m.rooms ==>
              && res.0.rooms == m.rooms[res.1 := NewRoom(res.1)]
              && |res.0.rooms| == |m.rooms| + 1
    ensures res.0.rooms.Keys == m.rooms.Keys + {res.1}
    ensures forall k :: k in m.rooms ==> res.0.rooms[k] == m.rooms[k]
  {
    var key := NormalizeCode(code);
    if key in m.rooms then (m, key) else (Manager(m.rooms[key := NewRoom(key)]), key)
  }

  lemma GetOrCreateKeepsValid(m: Manager, code: string)
    requires Valid(m)
    ensures Valid(GetOrCreate(m, code).0)
  {
    var key := NormalizeCode(code);
    if key !in m.rooms {
      assert Registered(key, NewRoom(key));
      InstallKeepsValid(m, key, NewRoom(key));
    }
  }

  /** Codes that differ only in surrounding white space or letter case name
      the same room, and asking again creates nothing new. */
  lemma GetOrCreateStable(m: Manager, a: string, b: string)
    requires NormalizeCode(a) == NormalizeCode(b)
    ensures GetOrCreate(m, a).1 == GetOrCreate(m, b).1
    ensures GetOrCreate(GetOrCreate(m, a).0, b) == GetOrCreate(m, a)
  {
  }

  /** The outcome of `ServeWS`. A stalled request has created its room but
      blocks forever replaying history into a queue nobody drains yet. */
  datatype ServeOutcome =
    | BadRequest
    | UpgradeFailed
    | Stalled(registry: Manager)
    | Joined(registry: Manager, code: string, id: ClientId)

  /** The history entries as queued payloads. */
  function Replayed(history: seq<string>): seq<Payload> {
    MapSeq((t: string) => Raw(t), history)
  }

  /** Adding a fresh, never registered client to a sound room keeps it
      sound (and valid, when it was) and makes registering it admissible. */
  lemma AddSessionKeepsValid(r: Room, c: Client)
    requires Hub.Sound(r) && c.id !in r.sessions && !c.ready && !c.send.closed && c.send.Bounded()
    ensures var r1 := r.(sessions := r.sessions[c.id := c]);
            && Hub.Sound(r1) && Admissible(r1, Join(c.id))
            && (Hub.Valid(r) ==> Hub.Valid(r1))
  {
    var r1 := r.(sessions := r.sessions[c.id := c]);
    assert ReadyMembers(r1) == ReadyMembers(r);
  }

  /** The tail of `ServeWS` once the room exists: replay the history into
      the fresh client's queue (blocking sends), then register it. `None`
      when the replay cannot fit and the handler blocks for good. */
  function Admit(room: Room, c: Client, history: seq<string>): (r: Option<Room>)
    requires Hub.Sound(room) && c.id !in room.sessions
    requires c.send.items == [] && c.send.capacity == SendBuffer && !c.send.closed && !c.ready
    ensures r.Some? <==> |history| <= SendBuffer
    ensures r.Some? ==>
              var r' := r.value;
              && Hub.Sound(r') && (Hub.Valid(room) ==> Hub.Valid(r')) && r'.code == room.code
              && r'.members == room.members + {c.id}
              && c.id in r'.sessions && r'.sessions[c.id].name == c.name
              && |history| <= |r'.sessions[c.id].send.items|
              && r'.sessions[c.id].send.items[..|history|] == Replayed(history)
  {
    match SendAll(c.send, Replayed(history))
    case None => None
    case Some(q) =>
      var c1 := c.(send := q);
      AddSessionKeepsValid(room, c1);
      var room1 := room.(sessions := room.sessions[c.id := c1]);
      RegisterKeepsValid(room1, c.id);
      RegisterExtendsQueues(room1, c.id, c.id);
      Some(Register(room1, c.id))
  }

  /** Storing a room under its own key keeps the registry valid. */
  lemma InstallKeepsValid(m: Manager, key: string, room: Room)
    requires Valid(m) && Registered(key, room)
    ensures Valid(Manager(m.rooms[key := room]))
  {
    var m' := Manager(m.rooms[key := room]);
    forall k | k in m'.rooms
      ensures Registered(k, m'.rooms[k])
    {
      if k != key {
        assert Registered(k, m.rooms[k]);
      }
    }
  }

  /** Admits the client into the registered room `key` and stores the
      result back into the registry. */
  function AdmitInto(m: Manager, key: string, c: Client, history: seq<string>): (r: Option<Manager>)
    requires Valid(m) && key in m.rooms && c.id !in m.rooms[key].sessions
    requires c.send.items == [] && c.send.capacity == SendBuffer && !c.send.closed && !c.ready
    ensures r.Some? <==> |history| <= SendBuffer
    ensures r.Some? ==>
              && Valid(r.value)
              && r.value.rooms.Keys == m.rooms.Keys
              && (forall k :: k in m.rooms && k != key ==> r.value.rooms[k] == m.rooms[k])
              && c.id in r.value.rooms[key].members
              && c.id in r.value.rooms[key].sessions
              && r.value.rooms[key].sessions[c.id].name == c.name
              && |history| <= |r.value.rooms[key].sessions[c.id].send.items|
              && r.value.rooms[key].sessions[c.id].send.items[..|history|] == Replayed(history)
  {
    assert Registered(key, m.rooms[key]);
    match Admit(m.rooms[key], c, history)
    case None => None
    case Some(room) =>
      assert Registered(key, room);
      InstallKeepsValid(m, key, room);
      Some(Manager(m.rooms[key := room]))
  }

  /** `ServeWS` after validation and upgrade: get or create the room,
      build the client, replay, register. Normalising the code and trimming
      the name a second time, as `GetOrCreate` and `NewClient` do, changes
      nothing, so the raw parameters are passed on. */
  function Enter(m: Manager, roomParam: string, nameParam: string, history: seq<string>, id: ClientId): (o: ServeOutcome)
    requires Valid(m)
    requires forall k :: k in m.rooms ==> id !in m.rooms[k].sessions
    ensures o.Stalled? || o.Joined?
    ensures o.Stalled? <==> |history| > SendBuffer
    ensures o.Stalled? ==> Valid(o.registry) && o.registry == GetOrCreate(m, roomParam).0
    ensures o.Joined? ==>
              && o.code == NormalizeCode(roomParam) && o.id == id
              && Valid(o.registry)
              && o.registry.rooms.Keys == m.rooms.Keys + {o.code}
              && (forall k :: k in m.rooms && k != o.code ==> o.registry.rooms[k] == m.rooms[k])
              && id in o.registry.rooms[o.code].members && id in o.registry.rooms[o.code].sessions
              && o.registry.rooms[o.code].sessions[id].name == DisplayName(nameParam)
              && |history| <= |o.registry.rooms[o.code].sessions[id].send.items|
              && o.registry.rooms[o.code].sessions[id].send.items[..|history|] == Replayed(history)
  {
    var g := GetOrCreate(m, roomParam);
    GetOrCreateKeepsValid(m, roomParam);
    assert id !in g.0.rooms[g.1].sessions by {
      if g.1 !in m.rooms { assert g.0.rooms[g.1] == NewRoom(g.1); }
    }
    match AdmitInto(g.0, g.1, NewClient(id, nameParam), history)
    case None => Stalled(g.0)
    case Some(m2) =>
      var c := NewClient(id, nameParam);
      assert m2.rooms[g.1].sessions[id].name == c.name == DisplayName(nameParam);
      Joined(m2, g.1, id)
  }

  /** `ServeWS` for the query parameters `roomParam` and `nameParam` and
      the request's Origin header. The upgrade succeeds when the origin is
      accepted and the rest of the handshake (`handshakeOk`) does; the
      stored history list (empty when reading it fails) and the generated
      id are inputs. */
  function ServeWS(m: Manager, roomParam: string, nameParam: string, origin: string, handshakeOk: bool,
                   history: seq<string>, id: ClientId): (o: ServeOutcome)
    requires Valid(m)
    requires forall k :: k in m.rooms ==> id !in m.rooms[k].sessions
    ensures o.BadRequest? <==> NormalizeCode(roomParam) == [] || GoStrings.TrimSpace(nameParam) == []
    ensures o.UpgradeFailed? <==> !o.BadRequest? && (origin != AllowedOrigin || !handshakeOk)
    ensures o.Stalled? <==> !o.BadRequest? && origin == AllowedOrigin && handshakeOk && |history| > SendBuffer
    ensures o.Stalled? ==> Valid(o.registry) && o.registry == GetOrCreate(m, roomParam).0
    ensures o.Joined? ==>
              && o.code == NormalizeCode(roomParam) && o.id == id
              && Valid(o.registry)
              && o.registry.rooms.Keys == m.rooms.Keys + {o.code}
              && (forall k :: k in m.rooms && k != o.code ==> o.registry.rooms[k] == m.rooms[k])
              && id in o.registry.rooms[o.code].members && id in o.registry.rooms[o.code].sessions
              && o.registry.rooms[o.code].sessions[id].name == GoStrings.TrimSpace(nameParam)
              && |history| <= |o.registry.rooms[o.code].sessions[id].send.items|
              && o.registry.rooms[o.code].sessions[id].send.items[..|history|] == Replayed(history)
  {
    if NormalizeCode(roomParam) == [] || GoStrings.TrimSpace(nameParam) == [] then BadRequest
    else if !(CheckOrigin(origin) && handshakeOk) then UpgradeFailed
    else Enter(m, roomParam, nameParam, history, id)
  }

  /** Stored history never exceeds 50 entries once trimmed, and 50 fit in a
      256-slot queue: a valid request is never stalled by its replay. */
  lemma ReplayFits(m: Manager, roomParam: string, nameParam: string, history: seq<string>, id: ClientId)
    requires Valid(m)
    requires forall k :: k in m.rooms ==> id !in m.rooms[k].sessions
    requires exists i :: 0 <= i < |roomParam| && !GoStrings.IsSpace(roomParam[i])
    requires exists i :: 0 <= i < |nameParam| && !GoStrings.IsSpace(nameParam[i])
    requires |history| <= 50
    ensures ServeWS(m, roomParam, nameParam, AllowedOrigin, true, history, id).Joined?
  {
    assert GoStrings.TrimSpace(roomParam) != [] && GoStrings.TrimSpace(nameParam) != [];
  }

  /** One entry of the room listing. */
  datatype RoomItem = RoomItem(id: string, name: string, code: string, count: int)

  /** `getRooms`, walking the registry in the map-iteration order `order`. */
  function GetRooms(m: Manager, order: seq<string>): (items: seq<RoomItem>)
    requires Enumerates(order, m.rooms.Keys)
    ensures |items| == |m.rooms| == |order|
    ensures forall i :: 0 <= i < |items| ==>
              && items[i].code == order[i] && items[i].code in m.rooms
              && items[i].name == items[i].code
              && items[i].id == items[i].code + "|" + items[i].code
              && items[i].count == |m.rooms[items[i].code].members|
  {
    EnumerationSize(order, m.rooms.Keys);
    seq(|order|, i requires 0 <= i < |order| =>
      RoomItem(order[i] + "|" + order[i], order[i], order[i], |m.rooms[order[i]].members|))
  }

  /** The listing names every registered room exactly once, and only those. */
  lemma GetRoomsListsEachRoomOnce(m: Manager, order: seq<string>)
    requires Enumerates(order, m.rooms.Keys)
    ensures var items := GetRooms(m, order);
            Enumerates(MapSeq((it: RoomItem) => it.code, items), m.rooms.Keys)
  {
    var items := GetRooms(m, order);
    assert MapSeq((it: RoomItem) => it.code, items) == order;
  }
}

=== FILE: session.dfy ===
/** A client session as the hubs see it (client.go's `Client`), the
    per-room table of sessions, and the two loops both hub variants run
    over their members: best-effort delivery and the roster snapshot. */
module Session {
  import opened Wire
  import opened Channels
  import opened Enumeration
  import GoStrings

  datatype Role = Crew | Killer

  datatype Client = Client(
    id: ClientId,
    name: string,
    alive: bool,
    ready: bool,
    role: Role,
    send: Chan)

  /** Capacity of every client's send channel. */
  const SendBuffer: nat := 256

  const DefaultName: string := "Player"

  lemma DefaultNameTrimmed()
    ensures DefaultName != [] && GoStrings.TrimSpace(DefaultName) == DefaultName
  {
    assert !GoStrings.IsSpace(DefaultName[0]) && !GoStrings.IsSpace(DefaultName[|DefaultName| - 1]);
    GoStrings.TrimSpaceOfTrimmed(DefaultName);
  }

  /** The display name `NewClient` keeps: the trimmed name, or "Player"
      when nothing is left after trimming. */
  function DisplayName(name: string): (n: string)
    ensures GoStrings.TrimSpace(name) != [] ==> n == GoStrings.TrimSpace(name)
    ensures GoStrings.TrimSpace(name) == [] ==> n == DefaultName
    ensures n != [] && GoStrings.TrimSpace(n) == n
  {
    var t := GoStrings.TrimSpace(name);
    if t == [] then DefaultNameTrimmed(); DefaultName
    else GoStrings.TrimSpaceIdempotent(name); t
  }

  /** `NewClient`: a fresh, alive, not-ready crew member with an empty send
      queue of capacity 256. */
  function NewClient(id: ClientId, name: string): (c: Client)
    ensures c.id == id
    ensures c.name == DisplayName(name)
    ensures c.alive && !c.ready && c.role == Crew
    ensures c.send.items == [] && c.send.capacity == SendBuffer && !c.send.closed
  {
    Client(id, DisplayName(name), true, false, Crew, MakeChan(SendBuffer))
  }

  /** Every session of a room, keyed by client id; a hub's member set is a
      subset of the keys. */
  type Sessions = map<ClientId, Client>

  predicate WellKeyed(s: Sessions) {
    forall k :: k in s ==> s[k].id == k
  }

  /** The sessions named by `targets` exist and can still be sent to. */
  predicate SendsOpen(s: Sessions, targets: set<ClientId>) {
    forall k :: k in targets ==> k in s && !s[k].send.closed
  }

  /** `for cl := range targets { select { case cl.send <- msg(cl): default: } }`:
      every target whose queue has room gets its message appended; a
      target with a full queue and every non-target are left as they are. */
  function Deliver(s: Sessions, targets: set<ClientId>, msg: Client -> Payload): (r: Sessions)
    requires SendsOpen(s, targets)
    ensures r.Keys == s.Keys
    ensures forall k :: k in s && k !in targets ==> r[k] == s[k]
    ensures forall k :: k in targets && s[k].send.Full() ==> r[k] == s[k]
    ensures forall k :: k in targets && !s[k].send.Full() ==>
              r[k].send.items == s[k].send.items + [msg(s[k])]
    ensures forall k :: k in s ==>
              r[k].(send := s[k].send) == s[k]
              && r[k].send.capacity == s[k].send.capacity
              && r[k].send.closed == s[k].send.closed
    ensures forall k :: k in s && s[k].send.Bounded() ==> r[k].send.Bounded()
  {
    map k | k in s :: if k in targets then s[k].(send := TrySend(s[k].send, msg(s[k]))) else s[k]
  }

  /** The snapshot entry of one client. */
  function SnapOf(c: Client): PlayerSnap {
    PlayerSnap(c.id, c.name, c.alive, c.ready)
  }

  /** The snapshot entries of the sessions listed by `order`, in that order. */
  function Players(s: Sessions, order: seq<ClientId>): (ps: seq<PlayerSnap>)
    requires forall i :: 0 <= i < |order| ==> order[i] in s
    ensures |ps| == |order|
  {
    seq(|order|, i requires 0 <= i < |order| => SnapOf(s[order[i]]))
  }

  /** A snapshot built by walking the members once has exactly one entry
      per member, each copying that member's id, name, liveness and
      readiness. */
  lemma PlayersPerMember(s: Sessions, members: set<ClientId>, order: seq<ClientId>)
    requires WellKeyed(s) && members <= s.Keys && Enumerates(order, members)
    ensures |Players(s, order)| == |members|
    ensures forall i :: 0 <= i < |order| ==>
              var p := Players(s, order)[i];
              p.id in members && p.id == order[i]
              && p.name == s[p.id].name && p.alive == s[p.id].alive && p.ready == s[p.id].ready
    ensures Enumerates(seq(|order|, i requires 0 <= i < |order| => Players(s, order)[i].id), members)
  {
    EnumerationSize(order, members);
    var ids := seq(|order|, i requires 0 <= i < |order| => Players(s, order)[i].id);
    assert ids == order;
  }

  /** `snapshot` of both hubs: the room code and the roster, walking the
      members in the map-iteration order `order`. */
  function Snapshot(code: string, s: Sessions, members: set<ClientId>, order: seq<ClientId>): (st: StateOut)
    requires WellKeyed(s) && members <= s.Keys && Enumerates(order, members)
    ensures st.room == code
    ensures |st.players| == |members| == |order|
    ensures forall i :: 0 <= i < |st.players| ==>
              var p := st.players[i];
              p.id in members && p.id == order[i]
              && p.name == s[p.id].name && p.alive == s[p.id].alive && p.ready == s[p.id].ready
  {
    PlayersPerMember(s, members, order);
    StateOut(code, Players(s, order))
  }

  /** Every member appears in the snapshot with its own fields. */
  lemma SnapshotListsMember(code: string, s: Sessions, members: set<ClientId>, order: seq<ClientId>, id: ClientId)
    requires WellKeyed(s) && members <= s.Keys && Enumerates(order, members) && id in members
    ensures var st := Snapshot(code, s, members, order);
            exists i :: 0 <= i < |st.players| && st.players[i] == PlayerSnap(id, s[id].name, s[id].alive, s[id].ready)
  {
    var st := Snapshot(code, s, members, order);
    var i :| 0 <= i < |order| && order[i] == id;
    assert st.players[i].id == id;
  }

  /** `broadcastState`'s message: the snapshot in a "state" envelope. */
  function StateMessage(st: StateOut): Payload {
    Json(Envelope(StateType, StateData(st)))
  }

  /** `p` is a "state" envelope for room `code` that lists every member of
      `members` exactly once, each with its own name, liveness and
      readiness, and nobody else. */
  ghost predicate ListsRoom(p: Payload, code: string, s: Sessions, members: set<ClientId>)
    requires members <= s.Keys
  {
    && p.Json? && p.env.kind == StateType && p.env.data.StateData?
    && var ps := p.env.data.state.players;
    && p.env.data.state.room == code
    && |ps| == |members|
    && (forall i :: 0 <= i < |ps| ==>
          ps[i].id in members && ps[i] == PlayerSnap(ps[i].id, s[ps[i].id].name, s[ps[i].id].alive, s[ps[i].id].ready))
    && (forall m :: m in members ==>
          exists i :: 0 <= i < |ps| && ps[i] == PlayerSnap(m, s[m].name, s[m].alive, s[m].ready))
  }

  /** The "state" message built from a snapshot lists the room. */
  lemma StateMessageListsRoom(code: string, s: Sessions, members: set<ClientId>, order: seq<ClientId>)
    requires WellKeyed(s) && members <= s.Keys && Enumerates(order, members)
    ensures ListsRoom(StateMessage(Snapshot(code, s, members, order)), code, s, members)
  {
    forall m | m in members
      ensures var ps := Snapshot(code, s, members, order).players;
              exists i :: 0 <= i < |ps| && ps[i] == PlayerSnap(m, s[m].name, s[m].alive, s[m].ready)
    {
      SnapshotListsMember(code, s, members, order, m);
    }
  }

  /** Whatever order the map walk takes, the snapshot holds the same
      entries. */
  lemma SnapshotOrderIrrelevant(code: string, s: Sessions, members: set<ClientId>, a: seq<ClientId>, b: seq<ClientId>)
    requires WellKeyed(s) && members <= s.Keys && Enumerates(a, members) && Enumerates(b, members)
    ensures Snapshot(code, s, members, a).room == Snapshot(code, s, members, b).room
    ensures multiset(Snapshot(code, s, members, a).players) == multiset(Snapshot(code, s, members, b).players)
  {
    EnumerationsPermute(a, b, members);
    var look := (id: ClientId) => if id in s then SnapOf(s[id]) else PlayerSnap(id, [], false, false);
    MapPermute(look, a, b);
    assert Players(s, a) == MapSeq(look, a);
    assert Players(s, b) == MapSeq(look, b);
  }
}

=== FILE: strings.dfy ===
/** Go's `strings.TrimSpace` and an ASCII-only `strings.ToUpper`, the two
    string operations the server applies to room codes and display names. */
module GoStrings {

  /** Go's `unicode.IsSpace`: the Unicode White_Space characters. */
  predicate IsSpace(c: char) {
    || c == ' ' || c == '\t' || c == '\n' || c == '\r'
    || c == '\U{000B}' || c == '\U{000C}' || c == '\U{0085}' || c == '\U{00A0}'
    || c == '\U{1680}' || ('\U{2000}' <= c <= '\U{200A}')
    || c == '\U{2028}' || c == '\U{2029}' || c == '\U{202F}' || c == '\U{205F}'
    || c == '\U{3000}'
  }

  /** Drops leading white space; the result is a suffix of `s`. */
  function TrimLeft(s: string): (r: string)
    ensures |r| <= |s| && r == s[|s| - |r|..]
    ensures r != [] ==> !IsSpace(r[0])
    ensures forall i :: 0 <= i < |s| - |r| ==> IsSpace(s[i])
  {
    if s != [] && IsSpace(s[0]) then TrimLeft(s[1..]) else s
  }

  /** Drops trailing white space; the result is a prefix of `s`. */
  function TrimRight(s: string): (r: string)
    ensures |r| <= |s| && r == s[..|r|]
    ensures r != [] ==> !IsSpace(r[|r| - 1])
    ensures forall i :: |r| <= i < |s| ==> IsSpace(s[i])
  {
    if s != [] && IsSpace(s[|s| - 1]) then TrimRight(s[..|s| - 1]) else s
  }

  /** Number of white-space characters `TrimSpace` removes at the front. */
  function LeadingSpaces(s: string): nat {
    |s| - |TrimLeft(s)|
  }

  /** `strings.TrimSpace`: the slice of `s` left after removing white space
      at both ends. */
  function TrimSpace(s: string): (r: string)
    ensures LeadingSpaces(s) + |r| <= |s|
    ensures r == s[LeadingSpaces(s)..LeadingSpaces(s) + |r|]
    ensures r != [] ==> !IsSpace(r[0]) && !IsSpace(r[|r| - 1])
    ensures forall i :: 0 <= i < LeadingSpaces(s) ==> IsSpace(s[i])
    ensures forall i :: LeadingSpaces(s) + |r| <= i < |s| ==> IsSpace(s[i])
    ensures r == [] <==> forall i :: 0 <= i < |s| ==> IsSpace(s[i])
  {
    TrimRight(TrimLeft(s))
  }

  /** A string without white space at either end is its own trim. */
  lemma TrimSpaceOfTrimmed(s: string)
    requires s != [] ==> !IsSpace(s[0]) && !IsSpace(s[|s| - 1])
    ensures TrimSpace(s) == s
  {
  }

  /** One blank on each side of a trimmed, non-empty string is removed
      again, and nothing more. */
  lemma TrimSpacePadded(t: string)
    requires t != [] && !IsSpace(t[0]) && !IsSpace(t[|t| - 1])
    ensures TrimSpace([' '] + t + [' ']) == t
  {
    var s := [' '] + t + [' '];
    var r := TrimSpace(s);
    var l := LeadingSpaces(s);
    assert s[1] == t[0] && s[|t|] == t[|t| - 1];
    assert l <= 1;
    assert r != [];
    assert l == 1;
    assert l + |r| == |t| + 1;
    assert s[1..|t| + 1] == t;
  }

  lemma TrimSpaceIdempotent(s: string)
    ensures TrimSpace(TrimSpace(s)) == TrimSpace(s)
  {
    TrimSpaceOfTrimmed(TrimSpace(s));
  }

  /** `unicode.ToUpper` restricted to ASCII letters. */
  function UpperAscii(c: char): char {
    if 'a' <= c <= 'z' then (c as int - 32) as char else c
  }

  /** `strings.ToUpper`, character by character (ASCII letters only). */
  function ToUpper(s: string): (r: string)
    ensures |r| == |s|
    ensures forall i :: 0 <= i < |s| ==> r[i] == UpperAscii(s[i])
  {
    seq(|s|, i requires 0 <= i < |s| => UpperAscii(s[i]))
  }

  /** Upper-casing never turns a letter into white space or back. */
  lemma UpperKeepsSpace(c: char)
    ensures IsSpace(UpperAscii(c)) <==> IsSpace(c)
  {
  }

  /** Upper-casing never yields an ASCII lower-case letter. */
  lemma UpperNotLower(c: char)
    ensures !('a' <= UpperAscii(c) <= 'z')
  {
  }

  /** Upper-casing a trimmed string leaves it trimmed. */
  lemma ToUpperKeepsTrimmed(s: string)
    requires s != [] ==> !IsSpace(s[0]) && !IsSpace(s[|s| - 1])
    ensures TrimSpace(ToUpper(s)) == ToUpper(s)
  {
    var u := ToUpper(s);
    if u != [] {
      UpperKeepsSpace(s[0]);
      UpperKeepsSpace(s[|s| - 1]);
    }
    TrimSpaceOfTrimmed(u);
  }
}

=== FILE: wire.dfy ===
/** The message shapes shared by every part of the server: the wire
    envelope, the player and room snapshots, and the bytes that travel
    through a client's send queue. JSON encoding is kept abstract: a
    payload is either opaque text (a client frame, a "joined" notice, a
    relayed or replayed message) or the encoding of an envelope. */
module Wire {

  datatype Option<+T> = None | Some(value: T)

  /** Client identifiers are opaque (generated UUIDs). */
  type ClientId = string

  /** One player as shown to others. */
  datatype PlayerSnap = PlayerSnap(id: ClientId, name: string, alive: bool, ready: bool)

  /** The room snapshot carried by a "state" envelope. */
  datatype StateOut = StateOut(room: string, players: seq<PlayerSnap>)

  /** The envelope payloads the server builds itself. */
  datatype Data =
    | StateData(state: StateOut)
    | AgreeData(username: string)

  /** `{"type": kind, "data": data}` */
  datatype Envelope = Envelope(kind: string, data: Data)

  datatype Payload =
    | Raw(text: string)
    | Json(env: Envelope)

  /** The envelope type of a room snapshot (the `EVState` event name). */
  const StateType: string := "state"

  /** The envelope type of the readiness signal the read pump intercepts. */
  const AgreeType: string := "agree"

  /** Text of the notice a hub sends when someone joins. */
  function JoinedNotice(name: string): string {
    "joined: " + name
  }
}
